=== FILE: README.md ===
# PropDocs contract analyser — a Dafny model of its core

PropDocs is a single Streamlit page (`app.py`). The user uploads a contract as
PDF, DOCX or TXT and picks an output language. On "Analyse contract" the page
sends the contract text to a chat-completion model under a fixed system
prompt. The reply is kept in the session as the *feedback*. The page then
shows the feedback, followed by a Markdown table of three fields — term, price
and location. `extract_metadata` reads these fields off the feedback with
three case-insensitive regular expressions. A download button offers the
feedback as `contract_analysis.txt`.

The Dafny project models that core as pure functions and proves properties
about it:

- `options.dfy` (`Options`): the `Option` type.
- `pystr.dfy` (`PyStr`): the Python `str` operations the page uses.
  - `isspace`;
  - `strip()` and `strip("*")`;
  - `split('.')` and `"\n".join`;
  - `lower()`;
  - concatenation of page texts.
- `pattern.dfy` (`FieldPattern`): `re.search(r"(?:k1|k2|…)[^\n:]*[:\-]\s*(.+)", text, re.IGNORECASE)`.
  - A declarative specification of Python's leftmost-first, backtracking
    semantics for this pattern shape:
    - `ValidPath`: one way the pattern matches at a position;
    - `Before`: the backtracking order;
    - `IsLeftmostFirst`: the match `re.search` reports.
  - An executable greedy matcher, proved to meet that specification.
- `laws.dfy` (`PatternLaws`): how the match behaves when letter case changes
  or when text is put before or after a reply.
- `metadata.dfy` (`Metadata`): `extract_metadata` and its inner `match`.
- `metadata_examples.dfy` (`MetadataExamples`): worked replies, including one
  where a later line changes a field.
- `prompts.dfy` (`Prompts`): the choice of system prompt by output language.
- `upload.dfy` (`Upload`): the file-type dispatch and the contract text it
  yields.
- `presenter.dfy` (`Presenter`): `metadata_md`, `feedback_with_metadata` and
  the download.
- `page.dfy` (`Page`): one Streamlit rerun.
  - the session feedback;
  - the contract preview;
  - the request to the completion service;
  - the view.

In the field patterns, `\s*` also matches line feeds, so a value may start
on the next line: `"Term:\n12"` gives term `12`
(`MetadataExamples.ValueOnNextLine`).

## Model

| member | source | states |
|---|---|---|
| PyStr.IsSpace | app.py:96-98 | The whitespace set of `str.strip()` and of `\s` in a `str` pattern, Python's `str.isspace()`, 29 characters in all. On ASCII it is exactly tab, line feed, vertical tab, form feed, carriage return, the four separators U+001C to U+001F, and space |
| PyStr.Strip | app.py:96 | `strip` with a character set: the result has no stripped character at either end, and it is the slice left after removing an all-stripped prefix and an all-stripped suffix |
| PyStr.StripUnique | app.py:96 | Any split of a string into a stripped-set prefix, a trimmed middle and a stripped-set suffix gives the middle as the strip |
| PyStr.StripIdempotent | app.py:101 | Stripping twice with the same set is stripping once |
| PyStr.StripOfSlice | app.py:96 | Stripping a piece of a text leaves a piece of that text |
| PyStr.RecasedStrip | app.py:96 | Stripping strings that differ only in letter case, with a case-blind set, gives results that differ only in letter case |
| PyStr.Split | app.py:30 | `split` on one character yields at least one piece, and no piece contains the separator |
| PyStr.Join | app.py:39 | `"\n".join`: no pieces give the empty string, and one piece gives that piece. `PyStr.JoinCons` gives the remaining cases, and `PyStr.SplitJoin` and `PyStr.JoinSplit` relate join to split |
| PyStr.JoinCons | app.py:39 | Joining a first piece in front of one or more others puts the separator between it and the join of the others |
| PyStr.SplitJoin | app.py:39 | Splitting at a separator undoes joining with it, when no piece holds the separator |
| PyStr.JoinSplit | app.py:39 | Joining the pieces of a split with the separator gives back the original string |
| PyStr.SplitAppend | app.py:30 | Splitting `a + sep + b` gives the pieces of `a` followed by the pieces of `b` |
| PyStr.LastPiece | app.py:30 | The last piece of `split` is the text after the last separator, or the whole string if there is none |
| PyStr.Concat | app.py:33-35 | Concatenating page texts: no pages give the empty string, one page gives that page's text, and every page appears whole in the result |
| PyStr.ConcatAppend | app.py:33-35 | Concatenating two runs of pages is concatenating their two texts |
| PyStr.Lower | app.py:30 | `str.lower()` on ASCII letters: the result has the same length, each ASCII capital becomes its small letter, and every other character is unchanged |
| PyStr.LowerIdempotent | app.py:30 | Lower-casing twice is lower-casing once, and the result differs from the input only in the case of ASCII letters |
| FieldPattern.TailFrom | app.py:98 | `\s*(.+)` after giving back whitespace: a capture of a non-empty line piece, the first in backtracking order, or none when no capture exists |
| FieldPattern.MatchTail | app.py:98 | `\s*(.+)` at a position: the first valid capture in backtracking order, or none when there is none |
| FieldPattern.SepFrom | app.py:98 | `[^\n:]*[:\-]` with backtracking: the first valid path by separator position, or none |
| FieldPattern.MatchRest | app.py:98-100 | `[^\n:]*[:\-]\s*(.+)` after a keyword: a valid path that comes before every other, or none when no path exists |
| FieldPattern.AltFrom | app.py:98-100 | The keyword alternation at a position: the first valid path in the order Python tries them, or none |
| FieldPattern.SearchFrom | app.py:95 | Scanning positions left to right: the first position with a match, together with its first path |
| FieldPattern.Search | app.py:95 | `re.search` returns the leftmost-first match, and returns nothing exactly when the pattern matches nowhere |
| FieldPattern.LeftmostFirstUnique | app.py:95 | There is at most one leftmost-first match, so the reported match is fully determined |
| FieldPattern.SearchFindsLeftmostFirst | app.py:95 | Whenever a leftmost-first match exists, the search finds it |
| FieldPattern.Group | app.py:95-96 | `m.group(1)`: absent exactly when there is no match, otherwise a non-empty piece of one line of the text |
| FieldPattern.GroupOfLeftmostFirst | app.py:96 | Group 1 is the slice the leftmost-first match captures |
| PatternLaws.SearchIgnoresCase | app.py:95 | With `re.IGNORECASE`, texts that differ only in letter case give the same match |
| PatternLaws.GroupIgnoresCase | app.py:95-96 | Group 1 of texts that differ only in letter case: present for both or neither, and equal up to case |
| PatternLaws.RecasedChar | app.py:95 | Characters equal up to ASCII case fold to the same lower-case letter and fall in the same regex classes |
| PatternLaws.ShiftedPath | app.py:95 | Putting text in front of a reply moves every match path of the reply right by the length of that text |
| PatternLaws.PrefixPath | app.py:98-100 | A path starting inside a cleanly ended text stays inside it, so nothing appended changes it |
| PatternLaws.MatchBeforeCleanEnd | app.py:95 | Text appended after a cleanly ended reply that already matches does not change the match |
| PatternLaws.MatchAfterCleanEnd | app.py:95 | A cleanly ended text without a match, put in front, shifts the match of what follows |
| PatternLaws.NoMatchAfterCleanEnd | app.py:95 | Two texts without a match, the first cleanly ended, have no match together |
| PatternLaws.GroupBeforeCleanEnd | app.py:95-96 | Group 1 is unchanged by text appended after a cleanly ended reply that matches |
| PatternLaws.GroupAfterCleanMiss | app.py:95-96 | A cleanly ended text without a match, put in front, leaves group 1 unchanged |
| PatternLaws.NoKeywordNoMatch | app.py:98-100 | A text in which no keyword occurs has no match |
| Metadata.MatchField | app.py:94-96 | The inner `match`: "Not specified" when nothing matches, otherwise a whitespace-trimmed piece of the reply; never contains a line feed |
| Metadata.Field | app.py:101 | One field, `match(p).strip("*").strip()`: one line and trimmed; "Not specified" when nothing matches, otherwise a piece of the reply |
| Metadata.ExtractMetadata | app.py:93-101 | The three fields are single-line and trimmed, and each is "Not specified" when its pattern matches nowhere |
| Metadata.FieldOfLeftmostFirst | app.py:96-101 | A field is the leftmost-first capture with whitespace, `*` and whitespace stripped in turn |
| Metadata.FieldOfGroupValue | app.py:96-101 | When the pattern matches, the field is group 1 stripped of whitespace, then of `*`, then of whitespace |
| Metadata.FieldOfCleanGroup | app.py:96-101 | A capture with no whitespace or `*` at its ends is the field unchanged |
| Metadata.FieldIgnoresCase | app.py:95-101 | Replies that differ only in letter case give fields that differ only in letter case |
| Metadata.ExtractMetadataIgnoresCase | app.py:93-101 | The whole metadata triple ignores letter case in the same way |
| Metadata.FieldKeepsEarlierMatch | app.py:95-101 | Text after a cleanly ended reply in which a field is found does not change that field |
| Metadata.FieldSkipsCleanMiss | app.py:95-101 | A cleanly ended text without a match, put in front, does not change the field |
| Metadata.FieldIgnoresInsertedLines | app.py:95-101 | Inserting cleanly ended, non-matching lines between cleanly ended lines and the rest leaves the field unchanged |
| Metadata.NoSeparatorNoMatch | app.py:98-100 | A text without `:` or `-` matches none of the patterns |
| Metadata.ExtractMetadataIgnoresInsertedLines | app.py:93-101 | Inserting, after cleanly ended text, cleanly ended lines without `:` or `-` changes none of the three fields |
| MetadataExamples.RentIsPrice | app.py:99 | `"Rent: $900"` gives price `$900` |
| MetadataExamples.ValueOnNextLine | app.py:98 | `\s*` crosses a line feed: `"Term:\n12"` gives term `12` |
| MetadataExamples.DanglingField | app.py:98 | For `"Term-x:\n"` backtracking settles on `-` as the separator, so the term is `x:` |
| MetadataExamples.LoneSpaceField | app.py:96-101 | A field can be empty: for `"Term: \n"` backtracking leaves `(.+)` a single space, which stripping removes |
| MetadataExamples.StarsField | app.py:96-101 | A value of stars only is emptied by `strip("*")`: `"Term: ***"` gives the empty term |
| MetadataExamples.InsideWordGroup | app.py:98 | The pattern has no word boundary: `term` inside `"determine: x"` starts a match, and group 1 is `x` |
| MetadataExamples.ContinuedField | app.py:98 | Adding a line changes the earlier match: for `"Term-x:\nF"` the term is `F`, which is why the locality laws require a clean line end |
| Prompts.SystemPrompt | app.py:59-77 | "Thai" selects the Thai prompt and "Italian" the Italian one, each exactly; every other value selects English |
| Prompts.PromptLabel | app.py:55 | Every prompt is reached from one of the three radio labels |
| Prompts.PromptLabelRoundTrip | app.py:55-77 | Each label selects a prompt whose label is that label again, and each prompt is selected by its own label |
| Prompts.SystemPromptInjective | app.py:55-77 | Different radio labels select different prompts |
| Upload.FileType | app.py:30 | The file type is the lower-cased text after the last `.` of the name, or the whole name if there is none, and it contains no `.` |
| Upload.Kind | app.py:31-41 | The branch taken: `pdf`, `docx` and `txt` each exactly, anything else handled by no branch |
| Upload.ContractText | app.py:26-41 | No upload or an unsupported type yields "". A PDF yields a text in which every page appears whole, and a TXT yields its decoded bytes |
| Upload.FileTypeOfExtension | app.py:30 | `stem.ext` has file type `lower(ext)` whatever the stem contains |
| Upload.FileTypeWithoutDot | app.py:30 | A name without `.` is its own file type, lower-cased |
| Upload.UpperCaseExtension | app.py:30-31 | `Contract.PDF` is read as a PDF |
| Upload.LastExtensionCounts | app.py:30-41 | `lease.pdf.txt` is read as text |
| Upload.DocxParagraphsRoundTrip | app.py:36-39 | Splitting a DOCX contract at line feeds gives its paragraphs back, when none holds a line feed |
| Upload.PdfPagesInOrder | app.py:33-35 | A PDF contract is its pages' texts in page order |
| Presenter.Cell | app.py:111 | A table cell is the field with the runs of `*` at its two ends removed: the field is a run of `*`, the cell, and a run of `*`, and the cell has no `*` at either end. It has no line feed if the field has none |
| Presenter.TableRow | app.py:111 | The row opens with a pipe and a space, and closes with a space, a pipe and a line feed |
| Presenter.MetadataMarkdown | app.py:105-112 | The metadata Markdown is the heading and the two header rows, followed by the row of the three cells |
| Presenter.MarkdownCells | app.py:105-112 | Split at the pipe character, the Markdown after the header rows gives back the term, price and location cells in that order, each padded by one space, when no cell holds a pipe |
| Presenter.DisplayedAnalysis | app.py:114 | The displayed text begins with the feedback unchanged |
| Presenter.DownloadOf | app.py:117-122 | The download holds the feedback alone, named `contract_analysis.txt`, as `text/plain` |
| Presenter.RowIsOneLine | app.py:111 | Fields without line feeds give a row whose only line feed is its last character |
| Presenter.ExtractedRowIsOneLine | app.py:103-111 | The row built from `extract_metadata` has no line feed before its final character |
| Presenter.RowCells | app.py:111 | Splitting the row at the pipe character gives an empty piece, the three cells each padded by one space, and the line feed, when no cell holds a pipe |
| Presenter.PipeInFieldAddsColumn | app.py:111 | One pipe in the price field is not escaped, so the row splits into one piece more than the header |
| Presenter.DisplayIsDownloadAndTable | app.py:114-119 | The page shows exactly the downloaded text, followed by the table of that same text |
| Page.AnalysisRequest | app.py:79-85 | The request names `gpt-3.5-turbo` and holds two messages. The first is the system prompt that the chosen label selects; the second is the contract text, verbatim, as the user message |
| Page.FallbackRequestIsEnglish | app.py:72-77 | An output language outside the three labels gets the English request |
| Page.ViewOf | app.py:89-122 | Analysis and download are shown exactly when the feedback is non-empty, and the download is the feedback |
| Page.Rerun | app.py:26-122 | The preview is shown exactly when there is contract text. The feedback becomes the service's reply exactly when there is contract text and the button is pressed; otherwise it is what the session held, or "" on the first run |
| Page.FeedbackPersists | app.py:43-57 | Without contract text or a press, the stored feedback and its view stay, even after the upload changes |
| Page.ViewFollowsFeedback | app.py:89-122 | What is rendered depends on the session feedback alone |
| Page.ContractLanguageIgnored | app.py:51-52 | The contract-language radio changes nothing |
| Page.FirstRunWithoutPressShowsNothing | app.py:43-89 | A fresh session shows no analysis until one is requested |
| Page.QuietRerunIsStable | app.py:43-89 | Rerunning with the same widgets and no press reproduces the same outcome |

## Left out

- The OpenAI client, the network call and the API key are not modelled. The completion service is the parameter `complete` of `Page.Rerun`: a function from the request to the content of the first choice. A `None` message content and request failures are not modelled.
- The PDF, DOCX and UTF-8 readers (`fitz`, `python-docx`, `bytes.decode`) are external libraries. An upload carries what each reader would produce: page texts, paragraph texts and the decoded text. Reader failures, such as a `UnicodeDecodeError` on a TXT upload or a corrupt PDF, are not modelled.
- Streamlit rendering is not modelled: layout, CSS, widgets, the spinner and Markdown rendering. The page is modelled as the strings and values it passes to Streamlit. The uploader's `type=` filter is not modelled, so any file name reaches the dispatch, and the dispatch's own fall-through is modelled.
- Prompts.PromptText: the prompt wording is data only. No property of the prompt texts beyond their selection is stated, because the long Unicode literals are too costly for the solver to compare.
- PyStr.Lower and Upload.FileType: `lower()` is modelled for ASCII letters only. Full Unicode lower-casing is left out: Python also lower-cases non-ASCII letters (`É` becomes `é`), and it lower-cases `İ` to two characters, so Python's result can be longer than the model's. For the file type this would change only names with non-ASCII letters in the extension, and no non-ASCII character lowercases to text made only of the letters of `pdf`, `docx` or `txt`, so the dispatch is exact.
- PatternLaws.RecasedChar and the case laws: "differs only in letter case" means equal after ASCII lower-casing. `re.IGNORECASE` equivalences outside ASCII are modelled in `FieldPattern.FoldsTo` for the keyword letters only (`İ` and `ı` for `i`, `ſ` for `s`); `FoldsTo` also folds the Kelvin sign `K` to `k`, a letter no keyword of the three patterns contains. The case laws do not cover re-casing non-ASCII letters elsewhere in the reply.
- Metadata.FieldKeepsEarlierMatch and the other locality laws hold only when the text before the change ends cleanly: its last line ends with a character that is neither whitespace nor `:` or `-`. Without that condition the property is false, because backtracking lets a later line change an earlier match (`MetadataExamples.DanglingField`, `MetadataExamples.ContinuedField`).
- Presenter.ExtractedRowIsOneLine: promises only that no line feed comes before the row's final character, not that Markdown renders it as one table row. `.` keeps a carriage return inside a capture, and Markdown treats a lone carriage return as a line ending. A pipe character inside a field adds a column (`Presenter.PipeInFieldAddsColumn`). `app.py` escapes neither.
- The regular-expression engine is modelled only for the pattern shape `app.py` uses: keyword alternatives, `[^\n:]*`, `[:\-]`, `\s*` and `(.+)`. It is not a general model of Python's `re`.

=== FILE: laws.dfy ===
/**
  Laws of the field patterns: letter case does not matter, and text after a
  line that ends cleanly cannot reach back into it.
 */
module PatternLaws {
  import opened Options
  import opened PyStr
  import opened FieldPattern

  /** Every keyword is spelled in lower-case ASCII letters, as in all three
      field patterns. */
  ghost predicate LowerKeywords(keys: seq<string>) {
    forall j, t :: 0 <= j < |keys| && 0 <= t < |keys[j]| ==> 'a' <= keys[j][t] <= 'z'
  }

  /** Both replies match along exactly the same paths. */
  ghost predicate SameMatches(s1: string, s2: string, keys: seq<string>) {
    forall i: nat, p :: ValidPath(s1, keys, i, p) <==> ValidPath(s2, keys, i, p)
  }

  /** Replies that match along the same paths give the same search result. */
  lemma SameMatchesSameSearch(s1: string, s2: string, keys: seq<string>)
    requires SameMatches(s1, s2, keys)
    ensures Search(s1, keys) == Search(s2, keys)
  {
    match Search(s1, keys)
    case Some(m) =>
      assert IsLeftmostFirst(s2, keys, m);
      SearchFindsLeftmostFirst(s2, keys, m);
    case None =>
      assert NoMatch(s2, keys);
  }

  // ---------------------------------------------------------------------
  // Letter case

  /** Two characters equal up to ASCII case agree on every class the
      pattern uses, and on every keyword letter. */
  lemma RecasedChar(c: char, d: char, k: char)
    requires LowerAscii(c) == LowerAscii(d) && 'a' <= k <= 'z'
    ensures FoldsTo(c, k) <==> FoldsTo(d, k)
    ensures IsSpace(c) <==> IsSpace(d)
    ensures IsFiller(c) <==> IsFiller(d)
    ensures IsSeparator(c) <==> IsSeparator(d)
    ensures NotNewline(c) <==> NotNewline(d)
  {
    if c != d {
      assert 'A' <= c <= 'Z' || 'A' <= d <= 'Z';
    }
  }

  /** Re-casing letters changes no keyword occurrence. */
  lemma RecasedKeyword(s1: string, s2: string, i: nat, key: string)
    requires Recased(s1, s2)
    requires forall t :: 0 <= t < |key| ==> 'a' <= key[t] <= 'z'
    ensures KeywordAt(s1, i, key) <==> KeywordAt(s2, i, key)
  {
    if i + |key| <= |s1| {
      forall t | 0 <= t < |key|
        ensures FoldsTo(s1[i..i + |key|][t], key[t]) <==> FoldsTo(s2[i..i + |key|][t], key[t])
      {
        RecasedChar(s1[i + t], s2[i + t], key[t]);
      }
    }
  }

  /** Re-casing letters changes no path of `[^\n:]*[:\-]\s*(.+)`. */
  lemma RecasedRest(s1: string, s2: string, k: nat, p: Path)
    requires Recased(s1, s2)
    ensures RestPath(s1, k, p) <==> RestPath(s2, k, p)
  {
    forall t | 0 <= t < |s1|
      ensures IsSpace(s1[t]) <==> IsSpace(s2[t])
      ensures IsFiller(s1[t]) <==> IsFiller(s2[t])
      ensures IsSeparator(s1[t]) <==> IsSeparator(s2[t])
      ensures NotNewline(s1[t]) <==> NotNewline(s2[t])
    {
      RecasedChar(s1[t], s2[t], 'a');
    }
  }

  /** Re-casing letters anywhere in the reply changes no path. */
  lemma RecasedSameMatches(s1: string, s2: string, keys: seq<string>)
    requires Recased(s1, s2) && LowerKeywords(keys)
    ensures SameMatches(s1, s2, keys)
  {
    forall i: nat, p: Path | p.alt < |keys|
      ensures ValidPath(s1, keys, i, p) <==> ValidPath(s2, keys, i, p)
    {
      RecasedKeyword(s1, s2, i, keys[p.alt]);
      RecasedRest(s1, s2, i + |keys[p.alt]|, p);
    }
  }

  /** Matching ignores letter case: re-casing any letters of the reply,
      keyword occurrences included, changes neither whether nor where nor
      how the pattern matches. */
  lemma SearchIgnoresCase(s1: string, s2: string, keys: seq<string>)
    requires Recased(s1, s2) && LowerKeywords(keys)
    ensures Search(s1, keys) == Search(s2, keys)
  {
    RecasedSameMatches(s1, s2, keys);
    SameMatchesSameSearch(s1, s2, keys);
  }

  /** Replies that match alike and differ only in letter case capture
      groups that differ only in letter case. */
  lemma GroupOfRecasedMatch(s1: string, s2: string, keys: seq<string>, m: Match)
    requires Recased(s1, s2) && IsLeftmostFirst(s1, keys, m) && IsLeftmostFirst(s2, keys, m)
    ensures Group(s1, keys).Some? && Group(s2, keys).Some?
    ensures Recased(Group(s1, keys).value, Group(s2, keys).value)
  {
    GroupOfLeftmostFirst(s1, keys, m);
    GroupOfLeftmostFirst(s2, keys, m);
    RecasedSlice(s1, s2, m.path.start, m.path.end);
  }

  /** Re-casing letters of the reply re-cases group 1 and nothing more. */
  lemma GroupIgnoresCase(s1: string, s2: string, keys: seq<string>)
    requires Recased(s1, s2) && LowerKeywords(keys)
    ensures Group(s1, keys).None? <==> Group(s2, keys).None?
    ensures Group(s1, keys).Some? ==> Recased(Group(s1, keys).value, Group(s2, keys).value)
  {
    RecasedSameMatches(s1, s2, keys);
    SameMatchesSameSearch(s1, s2, keys);
    if !NoMatch(s1, keys) {
      GroupOfRecasedMatch(s1, s2, keys, Search(s1, keys).value);
    }
  }

  // ---------------------------------------------------------------------
  // Position shifts

  /** `p` moved `d` characters to the right. */
  function ShiftPath(p: Path, d: nat): Path
  {
    Path(p.alt, p.sep + d, p.start + d, p.end + d)
  }

  /** Prepending `a` moves every keyword occurrence of `t` right by `|a|`. */
  lemma ShiftedKeyword(a: string, t: string, i: nat, key: string)
    ensures KeywordAt(a + t, |a| + i, key) <==> KeywordAt(t, i, key)
  {
    if i + |key| <= |t| {
      assert (a + t)[|a| + i..|a| + i + |key|] == t[i..i + |key|];
    }
  }

  /** Prepending `a` moves every run of a character class in `t` right by
      `|a|`. */
  lemma ShiftedRun(a: string, t: string, lo: nat, hi: nat, keep: char -> bool)
    requires lo <= hi <= |t|
    ensures (forall x :: lo <= x < hi ==> keep(t[x]))
        <==> (forall x :: |a| + lo <= x < |a| + hi ==> keep((a + t)[x]))
  {
    if forall x :: lo <= x < hi ==> keep(t[x]) {
      forall x | |a| + lo <= x < |a| + hi ensures keep((a + t)[x]) {
        assert (a + t)[x] == t[x - |a|];
      }
    }
    if forall x :: |a| + lo <= x < |a| + hi ==> keep((a + t)[x]) {
      forall x | lo <= x < hi ensures keep(t[x]) {
        assert (a + t)[|a| + x] == t[x];
      }
    }
  }

  /** Prepending `a` moves every path of `[^\n:]*[:\-]\s*(.+)` in `t`
      right by `|a|`. */
  lemma ShiftedRest(a: string, t: string, k: nat, p: Path)
    ensures RestPath(a + t, |a| + k, ShiftPath(p, |a|)) <==> RestPath(t, k, p)
  {
    var n := |a|;
    if k <= p.sep && p.sep + 1 <= p.start < p.end <= |t| {
      ShiftedRun(a, t, k, p.sep, IsFiller);
      ShiftedRun(a, t, p.sep + 1, p.start, IsSpace);
      ShiftedRun(a, t, p.start, p.end, NotNewline);
      assert (a + t)[n + p.sep] == t[p.sep];
    }
  }

  /** Prepending `a` moves every path of `t` right by `|a|`. */
  lemma ShiftedPath(a: string, t: string, keys: seq<string>, i: nat, p: Path)
    ensures ValidPath(a + t, keys, |a| + i, ShiftPath(p, |a|)) <==> ValidPath(t, keys, i, p)
  {
    if p.alt < |keys| {
      ShiftedKeyword(a, t, i, keys[p.alt]);
      ShiftedRest(a, t, i + |keys[p.alt]|, p);
    }
  }

  /** A path of `a + t` that starts inside `t` is a shifted path of `t`. */
  lemma PathAfterPrefix(a: string, t: string, keys: seq<string>, i: nat, q: Path)
    requires |a| <= i && ValidPath(a + t, keys, i, q)
    ensures q.sep >= |a| && q.start >= |a| && q.end >= |a|
    ensures var p := Path(q.alt, q.sep - |a|, q.start - |a|, q.end - |a|);
            q == ShiftPath(p, |a|) && ValidPath(t, keys, i - |a|, p)
  {
    var p := Path(q.alt, q.sep - |a|, q.start - |a|, q.end - |a|);
    ShiftedPath(a, t, keys, i - |a|, p);
  }

  // ---------------------------------------------------------------------
  // Lines that end cleanly

  /** `a` is empty, or its last line ends with a character that is neither
      whitespace nor a separator, followed by a line feed. No match can run
      across the end of such a text. */
  predicate EndsCleanly(a: string) {
    || a == []
    || (|a| >= 2 && a[|a| - 1] == '\n' && !IsSpace(a[|a| - 2]) && !IsSeparator(a[|a| - 2]))
  }

  /** The characters of a keyword occurrence are letters: no whitespace,
      no separator. */
  lemma KeywordLetters(s: string, i: nat, key: string)
    requires KeywordAt(s, i, key)
    requires forall t :: 0 <= t < |key| ==> 'a' <= key[t] <= 'z'
    ensures forall x :: i <= x < i + |key| ==> !IsSpace(s[x]) && !IsSeparator(s[x])
  {
    forall x | i <= x < i + |key| ensures !IsSpace(s[x]) && !IsSeparator(s[x]) {
      assert FoldsTo(s[i..i + |key|][x - i], key[x - i]);
    }
  }

  /** A run of characters inside `a` reads the same in `a + t`. */
  lemma PrefixRun(a: string, t: string, lo: nat, hi: nat, keep: char -> bool)
    requires lo <= hi <= |a|
    ensures (forall x :: lo <= x < hi ==> keep(a[x]))
        <==> (forall x :: lo <= x < hi ==> keep((a + t)[x]))
  {
    assert forall x :: lo <= x < hi ==> (a + t)[x] == a[x];
  }

  /** A path that lies inside `a` is a path of `a` exactly when it is one
      of `a + t`. */
  lemma SamePathInPrefix(a: string, t: string, keys: seq<string>, i: nat, p: Path)
    requires p.alt < |keys| && i + |keys[p.alt]| <= p.sep < p.start < p.end <= |a|
    ensures ValidPath(a + t, keys, i, p) <==> ValidPath(a, keys, i, p)
  {
    var s := a + t;
    var k := i + |keys[p.alt]|;
    PrefixRun(a, t, k, p.sep, IsFiller);
    PrefixRun(a, t, p.sep + 1, p.start, IsSpace);
    PrefixRun(a, t, p.start, p.end, NotNewline);
    assert s[p.sep] == a[p.sep];
    assert s[i..k] == a[i..k];
  }

  /** A path of `a + t` that starts inside a cleanly ended `a` ends before
      the final line feed of `a`. */
  lemma PathStaysInPrefix(a: string, t: string, keys: seq<string>, i: nat, p: Path)
    requires EndsCleanly(a) && LowerKeywords(keys) && i < |a|
    requires ValidPath(a + t, keys, i, p)
    ensures i + |keys[p.alt]| <= p.sep < p.start < p.end < |a|
  {
    var s := a + t;
    var n := |a|;
    var key := keys[p.alt];
    KeywordLetters(s, i, key);
    assert s[n - 1] == '\n' && s[n - 2] == a[n - 2];
    assert i + |key| <= n - 1;
    assert p.sep < n - 2;
    assert p.start < n - 1;
  }

  /** A path that starts inside a cleanly ended `a` stays inside `a`, so
      whatever follows `a` adds or removes no such path. */
  lemma PrefixPath(a: string, t: string, keys: seq<string>, i: nat, p: Path)
    requires EndsCleanly(a) && LowerKeywords(keys) && i < |a|
    ensures ValidPath(a + t, keys, i, p) <==> ValidPath(a, keys, i, p)
    ensures ValidPath(a, keys, i, p) ==> p.end < |a|
  {
    if ValidPath(a + t, keys, i, p) {
      PathStaysInPrefix(a, t, keys, i, p);
      SamePathInPrefix(a, t, keys, i, p);
    }
    if ValidPath(a, keys, i, p) {
      assert a[|a| - 1] == '\n';
      SamePathInPrefix(a, t, keys, i, p);
    }
  }

  /** Text appended after a cleanly ended reply cannot change a match the
      reply already has. */
  lemma MatchBeforeCleanEnd(a: string, t: string, keys: seq<string>, m: Match)
    requires EndsCleanly(a) && LowerKeywords(keys)
    requires Search(a, keys) == Some(m)
    ensures Search(a + t, keys) == Some(m)
    ensures m.path.end < |a|
  {
    var s := a + t;
    PrefixPath(a, t, keys, m.pos, m.path);
    forall i: nat, p | i <= m.pos
      ensures ValidPath(s, keys, i, p) <==> ValidPath(a, keys, i, p)
    {
      PrefixPath(a, t, keys, i, p);
    }
    assert IsLeftmostFirst(s, keys, m);
    SearchFindsLeftmostFirst(s, keys, m);
  }

  /** After a cleanly ended `a` without a match, every path of `a + t` is
      a shifted path of `t`. */
  lemma PathAfterCleanEnd(a: string, t: string, keys: seq<string>, i: nat, q: Path)
    requires EndsCleanly(a) && LowerKeywords(keys)
    requires NoMatch(a, keys) && ValidPath(a + t, keys, i, q)
    ensures |a| <= i && q.sep >= |a| && q.start >= |a| && q.end >= |a|
    ensures ValidPath(t, keys, i - |a|, Path(q.alt, q.sep - |a|, q.start - |a|, q.end - |a|))
  {
    if i < |a| {
      PrefixPath(a, t, keys, i, q);
    }
    PathAfterPrefix(a, t, keys, i, q);
  }

  /** A match of `t` is, moved right, the match of `a + t` when `a` ends
      cleanly and has none. */
  lemma MatchAfterCleanEnd(a: string, t: string, keys: seq<string>, m: Match)
    requires EndsCleanly(a) && LowerKeywords(keys)
    requires NoMatch(a, keys) && IsLeftmostFirst(t, keys, m)
    ensures IsLeftmostFirst(a + t, keys, Match(m.pos + |a|, ShiftPath(m.path, |a|)))
  {
    var s := a + t;
    ShiftedPath(a, t, keys, m.pos, m.path);
    forall i: nat, q: Path | ValidPath(s, keys, i, q)
      ensures m.pos + |a| <= i
      ensures i == m.pos + |a| ==> Before(ShiftPath(m.path, |a|), q)
    {
      PathAfterMatchAfterCleanEnd(a, t, keys, m, i, q);
    }
  }

  /** Every path of `a + t` starts no earlier than the moved match of `t`,
      and at the same place it comes no earlier in the backtracking order. */
  lemma PathAfterMatchAfterCleanEnd(a: string, t: string, keys: seq<string>, m: Match, i: nat, q: Path)
    requires EndsCleanly(a) && LowerKeywords(keys)
    requires NoMatch(a, keys) && IsLeftmostFirst(t, keys, m)
    requires ValidPath(a + t, keys, i, q)
    ensures m.pos + |a| <= i
    ensures i == m.pos + |a| ==> Before(ShiftPath(m.path, |a|), q)
  {
    PathAfterCleanEnd(a, t, keys, i, q);
    var p := Path(q.alt, q.sep - |a|, q.start - |a|, q.end - |a|);
    assert ValidPath(t, keys, i - |a|, p);
    assert q == ShiftPath(p, |a|);
    if i == m.pos + |a| {
      assert Before(m.path, p);
    }
  }

  /** A cleanly ended `a` without a match followed by `t` without a match
      has no match. */
  lemma NoMatchAfterCleanEnd(a: string, t: string, keys: seq<string>)
    requires EndsCleanly(a) && LowerKeywords(keys)
    requires NoMatch(a, keys) && NoMatch(t, keys)
    ensures NoMatch(a + t, keys)
  {
    forall i: nat, q: Path ensures !ValidPath(a + t, keys, i, q) {
      if ValidPath(a + t, keys, i, q) {
        PathAfterCleanEnd(a, t, keys, i, q);
      }
    }
  }

  /** A slice of `a` is the same slice of `a + t`. */
  lemma SliceOfPrefix(a: string, t: string, lo: nat, hi: nat)
    requires lo <= hi <= |a|
    ensures (a + t)[lo..hi] == a[lo..hi]
  {
  }

  /** What a path captures in `t` is what the path moved right by `|a|`
      captures in `a + t`. */
  lemma SliceOfShiftedPath(a: string, t: string, p: Path)
    requires p.start <= p.end <= |t|
    ensures var q := ShiftPath(p, |a|); (a + t)[q.start..q.end] == t[p.start..p.end]
  {
  }

  /** Text after a cleanly ended reply that matches does not change what
      group 1 captures. */
  lemma GroupBeforeCleanEnd(a: string, t: string, keys: seq<string>)
    requires EndsCleanly(a) && LowerKeywords(keys) && !NoMatch(a, keys)
    ensures Group(a + t, keys) == Group(a, keys)
  {
    var m := Search(a, keys).value;
    MatchBeforeCleanEnd(a, t, keys, m);
    GroupOfLeftmostFirst(a, keys, m);
    GroupOfLeftmostFirst(a + t, keys, m);
    SliceOfPrefix(a, t, m.path.start, m.path.end);
  }

  /** Group 1 of `a + t` is group 1 of `t` when `t` matches and a cleanly
      ended `a` does not. */
  lemma GroupOfShiftedMatch(a: string, t: string, keys: seq<string>, m: Match)
    requires EndsCleanly(a) && LowerKeywords(keys) && NoMatch(a, keys)
    requires IsLeftmostFirst(t, keys, m)
    ensures Group(a + t, keys) == Group(t, keys)
  {
    var m' := Match(m.pos + |a|, ShiftPath(m.path, |a|));
    MatchAfterCleanEnd(a, t, keys, m);
    GroupOfLeftmostFirst(t, keys, m);
    GroupOfLeftmostFirst(a + t, keys, m');
    SliceOfShiftedPath(a, t, m.path);
  }

  /** A cleanly ended reply that does not match, put in front of `t`, does
      not change what group 1 captures. */
  lemma GroupAfterCleanMiss(a: string, t: string, keys: seq<string>)
    requires EndsCleanly(a) && LowerKeywords(keys) && NoMatch(a, keys)
    ensures Group(a + t, keys) == Group(t, keys)
  {
    if NoMatch(t, keys) {
      NoMatchAfterCleanEnd(a, t, keys);
      assert Group(a + t, keys).None?;
    } else {
      GroupOfShiftedMatch(a, t, keys, Search(t, keys).value);
    }
  }

  /** A reply in which no keyword occurs does not match. */
  lemma NoKeywordNoMatch(u: string, keys: seq<string>)
    requires forall i: nat, j :: 0 <= j < |keys| ==> !KeywordAt(u, i, keys[j])
    ensures Search(u, keys) == None
  {
    assert NoMatch(u, keys);
  }
}

=== FILE: metadata.dfy ===
/**
  `extract_metadata`: the term, price and location of a contract read off
  the model's reply with three fixed case-insensitive patterns, each
  falling back to "Not specified".
 */
module Metadata {
  import opened Options
  import opened PyStr
  import opened FieldPattern
  import opened PatternLaws

  /** `(?:term|duration)` */
  const TermKeywords: seq<string> := ["term", "duration"]
  /** `(?:price|amount|rent)` */
  const PriceKeywords: seq<string> := ["price", "amount", "rent"]
  /** `(?:location|address)` */
  const LocationKeywords: seq<string> := ["location", "address"]

  /** The value of a field whose pattern matches nowhere. */
  const NotSpecified: string := "Not specified"

  /** The three values shown in the metadata table. */
  datatype Metadata = Metadata(term: string, price: string, location: string)

  /** The inner `match(pattern)`: group 1 of the match `re.search` reports,
      stripped of whitespace, or "Not specified". */
  function MatchField(reply: string, keys: seq<string>): (r: string)
    ensures '\n' !in r
    ensures Trimmed(r, IsSpace)
    ensures NoMatch(reply, keys) ==> r == NotSpecified
    ensures !NoMatch(reply, keys) ==> IsSliceOf(r, reply)
  {
    match Group(reply, keys)
    case None => NotSpecified
    case Some(g) =>
      StripKeepsNoNewline(g, IsSpace);
      StripOfSlice(g, reply, IsSpace);
      Strip(g, IsSpace)
  }

  /** One field of `extract_metadata`: `match(pattern).strip("*").strip()`. */
  function Field(reply: string, keys: seq<string>): (r: string)
    ensures '\n' !in r
    ensures Trimmed(r, IsSpace)
    ensures NoMatch(reply, keys) ==> r == NotSpecified
    ensures !NoMatch(reply, keys) ==> IsSliceOf(r, reply)
  {
    var v := MatchField(reply, keys);
    var r := Strip(Strip(v, IsStar), IsSpace);
    assert '\n' !in r by {
      StripKeepsNoNewline(v, IsStar);
      StripKeepsNoNewline(Strip(v, IsStar), IsSpace);
    }
    assert !NoMatch(reply, keys) ==> IsSliceOf(r, reply) by {
      if !NoMatch(reply, keys) {
        StripOfSlice(v, reply, IsStar);
        StripOfSlice(Strip(v, IsStar), reply, IsSpace);
      }
    }
    assert NoMatch(reply, keys) ==> r == NotSpecified by {
      if NoMatch(reply, keys) {
        assert NotSpecified == [] + NotSpecified + [];
        StripUnique([], NotSpecified, [], IsStar);
        StripUnique([], NotSpecified, [], IsSpace);
      }
    }
    r
  }

  /** `extract_metadata(text)`. */
  function ExtractMetadata(reply: string): (md: Metadata)
    ensures '\n' !in md.term && '\n' !in md.price && '\n' !in md.location
    ensures Trimmed(md.term, IsSpace) && Trimmed(md.price, IsSpace) && Trimmed(md.location, IsSpace)
    ensures NoMatch(reply, TermKeywords) ==> md.term == NotSpecified
    ensures NoMatch(reply, PriceKeywords) ==> md.price == NotSpecified
    ensures NoMatch(reply, LocationKeywords) ==> md.location == NotSpecified
  {
    Metadata(Field(reply, TermKeywords), Field(reply, PriceKeywords), Field(reply, LocationKeywords))
  }

  /** A field depends on the reply only through group 1. */
  lemma FieldOfGroup(r1: string, r2: string, keys: seq<string>)
    requires Group(r1, keys) == Group(r2, keys)
    ensures Field(r1, keys) == Field(r2, keys)
  {
  }

  /** What a field holds when its pattern matches: group 1 of the
      leftmost-first match, cleaned the way `extract_metadata` cleans it. */
  lemma FieldOfLeftmostFirst(reply: string, keys: seq<string>, m: Match)
    requires IsLeftmostFirst(reply, keys, m)
    ensures m.path.start < m.path.end <= |reply|
    ensures Field(reply, keys)
         == Strip(Strip(Strip(reply[m.path.start..m.path.end], IsSpace), IsStar), IsSpace)
  {
    GroupOfLeftmostFirst(reply, keys, m);
  }

  /** When the pattern matches, the field is group 1 stripped of
      whitespace, then of `*`, then of whitespace. */
  lemma FieldOfGroupValue(reply: string, keys: seq<string>, g: string)
    requires Group(reply, keys) == Some(g)
    ensures Field(reply, keys) == Strip(Strip(Strip(g, IsSpace), IsStar), IsSpace)
  {
  }

  /** A group 1 with no whitespace or `*` at either end is the field. */
  lemma FieldOfCleanGroup(reply: string, keys: seq<string>, g: string)
    requires Group(reply, keys) == Some(g) && Trimmed(g, IsSpace) && Trimmed(g, IsStar)
    ensures Field(reply, keys) == g
  {
    assert g == [] + g + [];
    StripUnique([], g, [], IsSpace);
    StripUnique([], g, [], IsStar);
  }

  /** The keywords of the three patterns are lower-case letters. */
  lemma KeywordsAreLower()
    ensures LowerKeywords(TermKeywords)
    ensures LowerKeywords(PriceKeywords)
    ensures LowerKeywords(LocationKeywords)
  {
  }

  // ---------------------------------------------------------------------
  // Letter case

  /** Re-casing letters of the reply re-cases the field and nothing more. */
  lemma FieldIgnoresCase(r1: string, r2: string, keys: seq<string>)
    requires Recased(r1, r2) && LowerKeywords(keys)
    ensures Recased(Field(r1, keys), Field(r2, keys))
  {
    GroupIgnoresCase(r1, r2, keys);
    SpaceIsCaseBlind();
    StarIsCaseBlind();
    var v1, v2 := MatchField(r1, keys), MatchField(r2, keys);
    if Group(r1, keys).Some? {
      RecasedStrip(Group(r1, keys).value, Group(r2, keys).value, IsSpace);
    }
    assert Recased(v1, v2);
    RecasedStrip(v1, v2, IsStar);
    RecasedStrip(Strip(v1, IsStar), Strip(v2, IsStar), IsSpace);
  }

  /** `extract_metadata` ignores letter case: replies that differ only in
      the case of letters give fields that differ only in the case of
      letters, each found or "Not specified" alike. */
  lemma ExtractMetadataIgnoresCase(r1: string, r2: string)
    requires Recased(r1, r2)
    ensures var m1, m2 := ExtractMetadata(r1), ExtractMetadata(r2);
            Recased(m1.term, m2.term) && Recased(m1.price, m2.price) && Recased(m1.location, m2.location)
  {
    KeywordsAreLower();
    FieldIgnoresCase(r1, r2, TermKeywords);
    FieldIgnoresCase(r1, r2, PriceKeywords);
    FieldIgnoresCase(r1, r2, LocationKeywords);
  }

  // ---------------------------------------------------------------------
  // Lines of the reply

  /** Text after a cleanly ended reply in which the field is found does not
      change the field. */
  lemma FieldKeepsEarlierMatch(a: string, t: string, keys: seq<string>)
    requires EndsCleanly(a) && LowerKeywords(keys) && !NoMatch(a, keys)
    ensures Field(a + t, keys) == Field(a, keys)
  {
    GroupBeforeCleanEnd(a, t, keys);
    FieldOfGroup(a + t, a, keys);
  }

  /** A cleanly ended piece in which the field is not found, put in front
      of `t`, does not change the field. */
  lemma FieldSkipsCleanMiss(a: string, t: string, keys: seq<string>)
    requires EndsCleanly(a) && LowerKeywords(keys) && NoMatch(a, keys)
    ensures Field(a + t, keys) == Field(t, keys)
  {
    GroupAfterCleanMiss(a, t, keys);
    FieldOfGroup(a + t, t, keys);
  }

  /** Inserting cleanly ended lines that do not match between cleanly
      ended lines and the rest of the reply does not change the field. */
  lemma FieldIgnoresInsertedLines(a: string, u: string, b: string, keys: seq<string>)
    requires EndsCleanly(a) && EndsCleanly(u) && LowerKeywords(keys) && NoMatch(u, keys)
    ensures Field(a + u + b, keys) == Field(a + b, keys)
  {
    assert a + u + b == a + (u + b);
    if NoMatch(a, keys) {
      FieldSkipsCleanMiss(a, u + b, keys);
      FieldSkipsCleanMiss(u, b, keys);
      FieldSkipsCleanMiss(a, b, keys);
    } else {
      FieldKeepsEarlierMatch(a, u + b, keys);
      FieldKeepsEarlierMatch(a, b, keys);
    }
  }

  /** A text without `:` or `-` matches no field pattern. */
  lemma NoSeparatorNoMatch(u: string, keys: seq<string>)
    requires forall t :: 0 <= t < |u| ==> !IsSeparator(u[t])
    ensures NoMatch(u, keys)
  {
  }

  /** Inserting cleanly ended lines without `:` or `-` into a reply, after
      cleanly ended lines, changes none of the three fields. */
  lemma ExtractMetadataIgnoresInsertedLines(a: string, u: string, b: string)
    requires EndsCleanly(a) && EndsCleanly(u)
    requires forall t :: 0 <= t < |u| ==> !IsSeparator(u[t])
    ensures ExtractMetadata(a + u + b) == ExtractMetadata(a + b)
  {
    KeywordsAreLower();
    NoSeparatorNoMatch(u, TermKeywords);
    NoSeparatorNoMatch(u, PriceKeywords);
    NoSeparatorNoMatch(u, LocationKeywords);
    FieldIgnoresInsertedLines(a, u, b, TermKeywords);
    FieldIgnoresInsertedLines(a, u, b, PriceKeywords);
    FieldIgnoresInsertedLines(a, u, b, LocationKeywords);
  }
}

=== FILE: metadata_examples.dfy ===
/**
  Replies worked through the field patterns, showing how the backtracking
  search behaves on inputs a reader might not expect.
 */
module MetadataExamples {
  import opened Options
  import opened PyStr
  import opened FieldPattern
  import opened Metadata

  // "Rent: $900": the price pattern's third keyword.

  lemma RentPath()
    ensures AltFrom("Rent: $900", PriceKeywords, 0, 0) == Some(Path(2, 4, 6, 10))
  {
    assert MatchTail("Rent: $900", 5) == Some(Capture(6, 10));
    assert MatchRest("Rent: $900", 2, 4) == Some(Path(2, 4, 6, 10));
    assert !KeywordAt("Rent: $900", 0, PriceKeywords[0]);
    assert !KeywordAt("Rent: $900", 0, PriceKeywords[1]);
    assert KeywordAt("Rent: $900", 0, PriceKeywords[2]);
  }

  lemma RentGroup()
    ensures Group("Rent: $900", PriceKeywords) == Some("$900")
  {
    RentPath();
    GroupAt("Rent: $900", PriceKeywords, 0, Path(2, 4, 6, 10), "$900");
  }

  /** Any of the alternatives names the field: "Rent" gives the price. */
  lemma RentIsPrice()
    ensures Field("Rent: $900", PriceKeywords) == "$900"
  {
    RentGroup();
    FieldOfCleanGroup("Rent: $900", PriceKeywords, "$900");
  }

  // "Term:\n12": `\s*` runs over the line feed.

  lemma NextLinePath()
    ensures AltFrom("Term:\n12", TermKeywords, 0, 0) == Some(Path(0, 4, 6, 8))
  {
    assert MatchTail("Term:\n12", 5) == Some(Capture(6, 8));
    assert MatchRest("Term:\n12", 0, 4) == Some(Path(0, 4, 6, 8));
    assert KeywordAt("Term:\n12", 0, TermKeywords[0]);
  }

  lemma NextLineGroup()
    ensures Group("Term:\n12", TermKeywords) == Some("12")
  {
    NextLinePath();
    GroupAt("Term:\n12", TermKeywords, 0, Path(0, 4, 6, 8), "12");
  }

  /** A field name with nothing after its colon takes its value from the
      next line. */
  lemma ValueOnNextLine()
    ensures Field("Term:\n12", TermKeywords) == "12"
  {
    NextLineGroup();
    FieldOfCleanGroup("Term:\n12", TermKeywords, "12");
  }

  // "Term-x:\n" and "Term-x:\nF": text after a line ending in a separator.

  lemma DanglingPath()
    ensures AltFrom("Term-x:\n", TermKeywords, 0, 0) == Some(Path(0, 4, 5, 7))
  {
    assert MatchTail("Term-x:\n", 7) == None;
    assert MatchTail("Term-x:\n", 5) == Some(Capture(5, 7));
    assert MatchRest("Term-x:\n", 0, 4) == Some(Path(0, 4, 5, 7));
    assert KeywordAt("Term-x:\n", 0, TermKeywords[0]);
  }

  lemma DanglingGroup()
    ensures Group("Term-x:\n", TermKeywords) == Some("x:")
  {
    DanglingPath();
    GroupAt("Term-x:\n", TermKeywords, 0, Path(0, 4, 5, 7), "x:");
  }

  lemma ContinuedPath()
    ensures AltFrom("Term-x:\nF", TermKeywords, 0, 0) == Some(Path(0, 6, 8, 9))
  {
    assert MatchTail("Term-x:\nF", 7) == Some(Capture(8, 9));
    assert MatchRest("Term-x:\nF", 0, 4) == Some(Path(0, 6, 8, 9));
    assert KeywordAt("Term-x:\nF", 0, TermKeywords[0]);
  }

  lemma ContinuedGroup()
    ensures Group("Term-x:\nF", TermKeywords) == Some("F")
  {
    ContinuedPath();
    GroupAt("Term-x:\nF", TermKeywords, 0, Path(0, 6, 8, 9), "F");
  }

  lemma DanglingField()
    ensures Field("Term-x:\n", TermKeywords) == "x:"
  {
    DanglingGroup();
    FieldOfCleanGroup("Term-x:\n", TermKeywords, "x:");
  }

  /** Text appended after a line that ends in `:` can change a field found
      on that line: "Term-x:\n" alone gives "x:", the same line followed by
      "F" gives "F". This is why the laws about lines ask for lines that
      end cleanly. */
  lemma ContinuedField()
    ensures Field("Term-x:\nF", TermKeywords) == "F"
  {
    ContinuedGroup();
    FieldOfCleanGroup("Term-x:\nF", TermKeywords, "F");
  }

  // "Term: \n": backtracking gives `\s*` back until `(.+)` can take a
  // single space.

  lemma LoneSpacePath()
    ensures AltFrom("Term: \n", TermKeywords, 0, 0) == Some(Path(0, 4, 5, 6))
  {
    assert MatchTail("Term: \n", 5) == Some(Capture(5, 6));
    assert MatchRest("Term: \n", 0, 4) == Some(Path(0, 4, 5, 6));
    assert KeywordAt("Term: \n", 0, TermKeywords[0]);
  }

  lemma LoneSpaceGroup()
    ensures Group("Term: \n", TermKeywords) == Some(" ")
  {
    LoneSpacePath();
    GroupAt("Term: \n", TermKeywords, 0, Path(0, 4, 5, 6), " ");
  }

  /** A field can be empty: when only a space follows the separator on its
      line, group 1 is that space, and stripping leaves nothing. */
  lemma LoneSpaceField()
    ensures Field("Term: \n", TermKeywords) == ""
  {
    LoneSpaceGroup();
    FieldOfGroupValue("Term: \n", TermKeywords, " ");
    StripUnique([' '], [], [], IsSpace);
    StripUnique([], [], [], IsStar);
  }

  // "Term: ***": a value made of stars only.

  lemma StarsPath()
    ensures AltFrom("Term: ***", TermKeywords, 0, 0) == Some(Path(0, 4, 6, 9))
  {
    assert MatchTail("Term: ***", 5) == Some(Capture(6, 9));
    assert MatchRest("Term: ***", 0, 4) == Some(Path(0, 4, 6, 9));
    assert KeywordAt("Term: ***", 0, TermKeywords[0]);
  }

  lemma StarsGroup()
    ensures Group("Term: ***", TermKeywords) == Some("***")
  {
    StarsPath();
    GroupAt("Term: ***", TermKeywords, 0, Path(0, 4, 6, 9), "***");
  }

  lemma StarsStripped()
    ensures Strip(Strip(Strip("***", IsSpace), IsStar), IsSpace) == ""
  {
    assert "***" == [] + "***" + [];
    StripUnique([], "***", [], IsSpace);
    StripUnique("***", [], [], IsStar);
    StripUnique([], [], [], IsSpace);
  }

  /** A value of stars only, bold markers with nothing between them, gives
      an empty field. */
  lemma StarsField()
    ensures Field("Term: ***", TermKeywords) == ""
  {
    StarsGroup();
    FieldOfGroupValue("Term: ***", TermKeywords, "***");
    StarsStripped();
  }

  // "determine: x": the keyword needs no word boundary.

  lemma InsideWordMissesAt0()
    ensures AltFrom("determine: x", TermKeywords, 0, 0).None?
  {
    assert !KeywordAt("determine: x", 0, TermKeywords[0]) by {
      assert !FoldsTo("determine: x"[0], TermKeywords[0][0]);
    }
    assert !KeywordAt("determine: x", 0, TermKeywords[1]) by {
      assert !FoldsTo("determine: x"[1], TermKeywords[1][1]);
    }
  }

  lemma InsideWordMissesAt1()
    ensures AltFrom("determine: x", TermKeywords, 1, 0).None?
  {
    assert !KeywordAt("determine: x", 1, TermKeywords[0]) by {
      assert !FoldsTo("determine: x"[1], TermKeywords[0][0]);
    }
    assert !KeywordAt("determine: x", 1, TermKeywords[1]) by {
      assert !FoldsTo("determine: x"[1], TermKeywords[1][0]);
    }
  }

  lemma InsideWordMisses()
    ensures forall j: nat :: j < 2 ==> AltFrom("determine: x", TermKeywords, j, 0).None?
  {
    InsideWordMissesAt0();
    InsideWordMissesAt1();
  }

  lemma InsideWordPath()
    ensures AltFrom("determine: x", TermKeywords, 2, 0) == Some(Path(0, 9, 11, 12))
  {
    assert MatchTail("determine: x", 10) == Some(Capture(11, 12));
    assert MatchRest("determine: x", 0, 6) == Some(Path(0, 9, 11, 12));
    assert KeywordAt("determine: x", 2, TermKeywords[0]);
  }

  /** "term" inside "determine" starts the term pattern: the pattern has
      no word boundary, so "determine: x" gives term "x". */
  lemma InsideWordGroup()
    ensures Group("determine: x", TermKeywords) == Some("x")
  {
    InsideWordMisses();
    InsideWordPath();
    GroupAt("determine: x", TermKeywords, 2, Path(0, 9, 11, 12), "x");
  }
}

=== FILE: options.dfy ===
/** The optional value used for "no match" and "no upload". */
module Options {

  datatype Option<+T> = None | Some(value: T)
}

=== FILE: page.dfy ===
/**
  One run of the page script: Streamlit runs the whole script again on
  every interaction, so a run reads the widgets and the stored session
  feedback, possibly asks the completion service for a new analysis, and
  renders what the feedback then is.
 */
module Page {
  import opened Options
  import opened Prompts
  import opened Upload
  import opened Presenter

  /** The chat model the analysis is requested from. */
  const ChatModel: string := "gpt-3.5-turbo"

  /** One message of a chat completion request. */
  datatype ChatMessage = ChatMessage(role: string, content: string)

  /** The arguments of the chat completion call. */
  datatype ChatRequest = ChatRequest(model: string, messages: seq<ChatMessage>)

  /** What the widgets hold on this run: the upload, the two radios and
      whether "Analyse contract" was pressed. */
  datatype Inputs = Inputs(
    upload: Option<UploadedFile>,
    contractLanguage: string,
    outputLanguage: string,
    pressed: bool)

  /** The analysis and its download, shown while there is feedback. */
  datatype View = View(shown: string, download: DownloadFile)

  /** What a run leaves behind: the session feedback, the contract preview
      (shown while there is contract text) and the analysis view. */
  datatype Outcome = Outcome(feedback: string, preview: Option<string>, view: Option<View>)

  /** The request for an analysis: the system prompt of the output language,
      then the contract text as the user's message. */
  function AnalysisRequest(outputLanguage: string, text: string): (req: ChatRequest)
    ensures req.model == ChatModel && |req.messages| == 2
    ensures req.messages[0].role == "system" && req.messages[1].role == "user"
    ensures req.messages[1].content == text
    ensures outputLanguage in OutputLabels ==>
              exists p :: PromptLabel(p) == outputLanguage && req.messages[0].content == PromptText(p)
  {
    var p := SystemPrompt(outputLanguage);
    assert outputLanguage in OutputLabels ==> PromptLabel(p) == outputLanguage by {
      PromptLabelRoundTrip(outputLanguage, p);
    }
    ChatRequest(ChatModel, [ChatMessage("system", PromptText(p)),
                            ChatMessage("user", text)])
  }

  /** An output language other than the three labels gets the English
      request. */
  lemma FallbackRequestIsEnglish(outputLanguage: string, text: string)
    requires outputLanguage !in OutputLabels
    ensures AnalysisRequest(outputLanguage, text) == AnalysisRequest("English", text)
  {
    assert SystemPrompt(outputLanguage) == SystemPrompt("English") by {
      assert "Thai" == OutputLabels[0] && "Italian" == OutputLabels[2];
    }
  }

  /** What the page renders for a given session feedback. */
  function ViewOf(feedback: string): (v: Option<View>)
    ensures v.Some? <==> feedback != ""
    ensures v.Some? ==> v.value.download.data == feedback && feedback <= v.value.shown
  {
    if feedback == "" then None
    else Some(View(DisplayedAnalysis(feedback), DownloadOf(feedback)))
  }

  /** One run of the script. `stored` is the session feedback from the
      previous run, absent on the first; `complete` stands for the
      completion service and yields the content of the first choice. */
  function Rerun(stored: Option<string>, input: Inputs, complete: ChatRequest -> string): (r: Outcome)
    ensures var text := ContractText(input.upload);
            (r.preview.Some? <==> text != "") && (r.preview.Some? ==> r.preview.value == text)
    ensures var text := ContractText(input.upload);
            text != "" && input.pressed ==> r.feedback == complete(AnalysisRequest(input.outputLanguage, text))
    ensures var text := ContractText(input.upload);
            !(text != "" && input.pressed) ==> r.feedback == (if stored.Some? then stored.value else "")
    ensures r.view.Some? <==> r.feedback != ""
    ensures r.view.Some? ==> r.view.value.download.data == r.feedback && r.feedback <= r.view.value.shown
  {
    var text := ContractText(input.upload);
    var feedback := if stored.Some? then stored.value else "";
    var feedback := if text != "" && input.pressed then complete(AnalysisRequest(input.outputLanguage, text)) else feedback;
    Outcome(feedback, if text != "" then Some(text) else None, ViewOf(feedback))
  }

  /** The feedback only changes when there is contract text and the button
      is pressed; otherwise the previous analysis stays on the page, even
      after the upload is changed or removed. */
  lemma FeedbackPersists(feedback: string, input: Inputs, complete: ChatRequest -> string)
    requires ContractText(input.upload) == "" || !input.pressed
    ensures Rerun(Some(feedback), input, complete).feedback == feedback
    ensures Rerun(Some(feedback), input, complete).view == ViewOf(feedback)
  {
  }

  /** The view depends on nothing but the session feedback: two runs that
      end with the same feedback render the same analysis and download. */
  lemma ViewFollowsFeedback(s1: Option<string>, i1: Inputs, s2: Option<string>, i2: Inputs,
                            complete: ChatRequest -> string)
    requires Rerun(s1, i1, complete).feedback == Rerun(s2, i2, complete).feedback
    ensures Rerun(s1, i1, complete).view == Rerun(s2, i2, complete).view
  {
  }

  /** The contract-language radio is read but used nowhere. */
  lemma ContractLanguageIgnored(stored: Option<string>, input: Inputs, language: string,
                                complete: ChatRequest -> string)
    ensures Rerun(stored, input.(contractLanguage := language), complete) == Rerun(stored, input, complete)
  {
  }

  /** A fresh session shows no analysis until one is requested. */
  lemma FirstRunWithoutPressShowsNothing(input: Inputs, complete: ChatRequest -> string)
    requires !input.pressed
    ensures Rerun(None, input, complete).view.None?
  {
  }

  /** Running again with the same widgets and no press changes nothing:
      the stored feedback is a fixed point of a run without a press. */
  lemma QuietRerunIsStable(stored: Option<string>, input: Inputs, complete: ChatRequest -> string)
    ensures var r1 := Rerun(stored, input, complete);
            var r2 := Rerun(Some(r1.feedback), input.(pressed := false), complete);
            r2 == r1
  {
  }
}

=== FILE: pattern.dfy ===
/**
  The field patterns of the metadata extractor,

      (?:k0|k1|...)[^\n:]*[:\-]\s*(.+)        searched with re.IGNORECASE,

  given once as a specification (every way the pattern can match, and the
  order in which Python's backtracking engine tries them) and once as a
  greedy matcher that follows that order, proved to pick the match
  `re.search` picks.
 */
module FieldPattern {
  import opened Options
  import opened PyStr

  /** `[^\n:]`: what may stand between a keyword and its separator. */
  predicate IsFiller(c: char) {
    c != '\n' && c != ':'
  }

  /** `[:\-]`: the separator. */
  predicate IsSeparator(c: char) {
    c == ':' || c == '-'
  }

  /** `.` without DOTALL: anything but a line feed. */
  predicate NotNewline(c: char) {
    c != '\n'
  }

  /** Whether reply character `c` matches the lower-case ASCII pattern
      letter `k` under `re.IGNORECASE`: the letter itself, its capital, and
      the non-ASCII characters Python's `re` treats as the same letter
      (dotted and dotless I for `i`, long s for `s`, the Kelvin sign for `k`). */
  predicate FoldsTo(c: char, k: char) {
    || c == k
    || ('a' <= k <= 'z' && c as int == k as int - 32)
    || (k == 'i' && (c == '\U{0130}' || c == '\U{0131}'))
    || (k == 's' && c == '\U{017F}')
    || (k == 'k' && c == '\U{212A}')
  }

  /** Each character of `a` matches, ignoring case, the pattern letter at
      the same place of `key`. */
  predicate SameLetters(a: string, key: string)
    requires |a| == |key|
    ensures SameLetters(a, key) <==> forall t :: 0 <= t < |key| ==> FoldsTo(a[t], key[t])
  {
    |a| == 0 || (FoldsTo(a[0], key[0]) && SameLetters(a[1..], key[1..]))
  }

  /** Keyword `key` occurs, ignoring case, at position `i` of `s`. */
  predicate KeywordAt(s: string, i: nat, key: string) {
    i + |key| <= |s| && SameLetters(s[i..i + |key|], key)
  }

  /** The span `[start, end)` captured by group 1. */
  datatype Capture = Capture(start: nat, end: nat)

  /** One way the pattern can match: keyword number `alt` of the
      alternation, the separator at `sep`, and group 1 spanning
      `[start, end)`. */
  datatype Path = Path(alt: nat, sep: nat, start: nat, end: nat)

  /** `\s*(.+)` matches from `lo` with group 1 spanning `[start, end)`. */
  ghost predicate TailPath(s: string, lo: nat, start: nat, end: nat) {
    && lo <= start < end <= |s|
    && (forall t :: lo <= t < start ==> IsSpace(s[t]))
    && (forall t :: start <= t < end ==> NotNewline(s[t]))
  }

  /** `[^\n:]*[:\-]\s*(.+)` matches from `k` along `p`. */
  ghost predicate RestPath(s: string, k: nat, p: Path) {
    && k <= p.sep < |s|
    && (forall t :: k <= t < p.sep ==> IsFiller(s[t]))
    && IsSeparator(s[p.sep])
    && TailPath(s, p.sep + 1, p.start, p.end)
  }

  /** The whole pattern with alternatives `keys` matches at `i` along `p`. */
  ghost predicate ValidPath(s: string, keys: seq<string>, i: nat, p: Path) {
    && p.alt < |keys|
    && KeywordAt(s, i, keys[p.alt])
    && RestPath(s, i + |keys[p.alt]|, p)
  }

  /** Python's backtracking tries `a` no later than `b`: alternatives from
      left to right, and each greedy quantifier (`[^\n:]*`, `\s*`, `.+`)
      longest first. */
  predicate Before(a: Path, b: Path) {
    || a.alt < b.alt
    || (a.alt == b.alt && a.sep > b.sep)
    || (a.alt == b.alt && a.sep == b.sep && a.start > b.start)
    || (a.alt == b.alt && a.sep == b.sep && a.start == b.start && a.end >= b.end)
  }

  /** A match found by the search: where it starts and how it matched. */
  datatype Match = Match(pos: nat, path: Path)

  /** `m` is the match `re.search` reports: the leftmost starting position
      at which the pattern matches at all, and there the first path the
      backtracking order reaches. */
  ghost predicate IsLeftmostFirst(s: string, keys: seq<string>, m: Match) {
    && ValidPath(s, keys, m.pos, m.path)
    && (forall i: nat, p :: i < m.pos ==> !ValidPath(s, keys, i, p))
    && (forall p :: ValidPath(s, keys, m.pos, p) ==> Before(m.path, p))
  }

  /** The pattern matches nowhere in `s`. */
  ghost predicate NoMatch(s: string, keys: seq<string>) {
    forall i: nat, p :: !ValidPath(s, keys, i, p)
  }

  /** `\s*(.+)` from `lo` once `\s*` has been given back to `w`: the first
      position (from `w` downwards) where `.+` can take a character starts
      group 1, which then runs to the end of the line. */
  function TailFrom(s: string, lo: nat, w: nat): (r: Option<Capture>)
    requires lo <= w <= |s|
    requires forall t :: lo <= t < w ==> IsSpace(s[t])
    ensures r.Some? ==> TailPath(s, lo, r.value.start, r.value.end) && r.value.start <= w
    ensures r.Some? ==> forall st: nat, e: nat :: TailPath(s, lo, st, e) && st <= w ==>
                          st < r.value.start || (st == r.value.start && e <= r.value.end)
    ensures r.None? ==> forall st: nat, e: nat :: TailPath(s, lo, st, e) ==> st > w
    decreases w
  {
    if w < |s| && NotNewline(s[w]) then
      Some(Capture(w, Span(s, w, NotNewline)))
    else if w == lo then
      None
    else
      TailFrom(s, lo, w - 1)
  }

  /** `\s*(.+)` at `lo`: `\s*` first takes the longest run of whitespace. */
  function MatchTail(s: string, lo: nat): (r: Option<Capture>)
    requires lo <= |s|
    ensures r.Some? ==> TailPath(s, lo, r.value.start, r.value.end)
    ensures r.Some? ==> forall st: nat, e: nat :: TailPath(s, lo, st, e) ==>
                          st < r.value.start || (st == r.value.start && e <= r.value.end)
    ensures r.None? ==> forall st: nat, e: nat :: !TailPath(s, lo, st, e)
  {
    var w := Span(s, lo, IsSpace);
    TailFrom(s, lo, w)
  }

  /** `[^\n:]*[:\-]\s*(.+)` from `k` once `[^\n:]*` has been given back to
      `q`, reporting keyword number `alt`: separators are tried from `q`
      downwards. */
  function SepFrom(s: string, alt: nat, k: nat, q: nat): (r: Option<Path>)
    requires k <= q <= |s|
    requires forall t :: k <= t < q ==> IsFiller(s[t])
    ensures r.Some? ==> RestPath(s, k, r.value) && r.value.alt == alt && r.value.sep <= q
    ensures r.Some? ==> forall p :: RestPath(s, k, p) && p.alt == alt && p.sep <= q ==> Before(r.value, p)
    ensures r.None? ==> forall p :: RestPath(s, k, p) ==> p.sep > q
    decreases q
  {
    var here := if q < |s| && IsSeparator(s[q]) then MatchTail(s, q + 1) else None;
    if here.Some? then
      Some(Path(alt, q, here.value.start, here.value.end))
    else if q == k then
      None
    else
      SepFrom(s, alt, k, q - 1)
  }

  /** `[^\n:]*[:\-]\s*(.+)` at `k`: `[^\n:]*` first takes the longest run. */
  function MatchRest(s: string, alt: nat, k: nat): (r: Option<Path>)
    requires k <= |s|
    ensures r.Some? ==> RestPath(s, k, r.value) && r.value.alt == alt
    ensures r.Some? ==> forall p :: RestPath(s, k, p) && p.alt == alt ==> Before(r.value, p)
    ensures r.None? ==> forall p :: !RestPath(s, k, p)
  {
    var q := Span(s, k, IsFiller);
    SepFrom(s, alt, k, q)
  }

  /** The alternation at `i`, trying keywords `keys[j..]` in order. */
  function AltFrom(s: string, keys: seq<string>, i: nat, j: nat): (r: Option<Path>)
    requires j <= |keys|
    ensures r.Some? ==> ValidPath(s, keys, i, r.value) && r.value.alt >= j
    ensures r.Some? ==> forall p :: ValidPath(s, keys, i, p) && p.alt >= j ==> Before(r.value, p)
    ensures r.None? ==> forall p :: ValidPath(s, keys, i, p) ==> p.alt < j
    decreases |keys| - j
  {
    if j == |keys| then
      None
    else
      AltPathParts(s, keys, i, j);
      if KeywordAt(s, i, keys[j]) then
        match MatchRest(s, j, i + |keys[j]|)
        case Some(p) => Some(p)
        case None => AltFrom(s, keys, i, j + 1)
      else
        AltFrom(s, keys, i, j + 1)
  }

  /** A path of the whole pattern through keyword `j`: the keyword, then
      the rest of the pattern right after it. */
  lemma AltPathParts(s: string, keys: seq<string>, i: nat, j: nat)
    requires j < |keys|
    ensures forall q :: ValidPath(s, keys, i, q) && q.alt == j ==>
                          KeywordAt(s, i, keys[j]) && RestPath(s, i + |keys[j]|, q)
  {
  }

  /** `re.search` from position `i` on. */
  function SearchFrom(s: string, keys: seq<string>, i: nat): (r: Option<Match>)
    ensures r.Some? ==> r.value.pos >= i && ValidPath(s, keys, r.value.pos, r.value.path)
    ensures r.Some? ==> forall i': nat, p :: i <= i' < r.value.pos ==> !ValidPath(s, keys, i', p)
    ensures r.Some? ==> forall p :: ValidPath(s, keys, r.value.pos, p) ==> Before(r.value.path, p)
    ensures r.None? ==> forall i': nat, p :: i <= i' ==> !ValidPath(s, keys, i', p)
    decreases |s| + 1 - i
  {
    if i > |s| then
      None
    else
      match AltFrom(s, keys, i, 0)
      case Some(p) => Some(Match(i, p))
      case None =>
        var r := SearchFrom(s, keys, i + 1);
        assert forall p :: !ValidPath(s, keys, i, p);
        r
  }

  /** `re.search(pattern, s, re.IGNORECASE)` for the pattern with keyword
      alternatives `keys`. */
  function Search(s: string, keys: seq<string>): (r: Option<Match>)
    ensures r.Some? ==> IsLeftmostFirst(s, keys, r.value)
    ensures r.None? <==> NoMatch(s, keys)
  {
    SearchFrom(s, keys, 0)
  }

  /** The match `re.search` reports is determined by the specification:
      there is at most one leftmost-first match. */
  lemma LeftmostFirstUnique(s: string, keys: seq<string>, m1: Match, m2: Match)
    requires IsLeftmostFirst(s, keys, m1) && IsLeftmostFirst(s, keys, m2)
    ensures m1 == m2
  {
    assert !(m1.pos < m2.pos) && !(m2.pos < m1.pos);
    assert Before(m1.path, m2.path) && Before(m2.path, m1.path);
  }

  /** The matcher finds exactly the leftmost-first match whenever one exists. */
  lemma SearchFindsLeftmostFirst(s: string, keys: seq<string>, m: Match)
    requires IsLeftmostFirst(s, keys, m)
    ensures Search(s, keys) == Some(m)
  {
    var r := Search(s, keys);
    assert ValidPath(s, keys, m.pos, m.path);
    LeftmostFirstUnique(s, keys, r.value, m);
  }

  /** Group 1 of a match lies inside the text and holds no line feed. */
  lemma GroupOfPath(s: string, keys: seq<string>, i: nat, p: Path)
    requires ValidPath(s, keys, i, p)
    ensures p.start < p.end <= |s|
    ensures '\n' !in s[p.start..p.end]
  {
    var group := s[p.start..p.end];
    forall t | 0 <= t < |group| ensures group[t] != '\n' {
      assert group[t] == s[p.start + t];
    }
  }

  /** Group 1 of the match `re.search` reports, if the pattern matches:
      a non-empty piece of one line. */
  function Group(s: string, keys: seq<string>): (g: Option<string>)
    ensures g.None? <==> NoMatch(s, keys)
    ensures g.Some? ==> |g.value| > 0 && '\n' !in g.value && IsSliceOf(g.value, s)
  {
    match Search(s, keys)
    case None => None
    case Some(m) =>
      GroupOfPath(s, keys, m.pos, m.path);
      assert s[m.path.start..m.path.end] <= s[m.path.start..];
      Some(s[m.path.start..m.path.end])
  }

  /** Group 1 is what the leftmost-first match captures. */
  lemma GroupOfLeftmostFirst(s: string, keys: seq<string>, m: Match)
    requires IsLeftmostFirst(s, keys, m)
    ensures m.path.start < m.path.end <= |s|
    ensures Group(s, keys) == Some(s[m.path.start..m.path.end])
  {
    SearchFindsLeftmostFirst(s, keys, m);
  }

  /** When the alternation fails at every position before `i` and
      succeeds at `i` along `p`, group 1 is the text `p` captures. */
  lemma GroupAt(s: string, keys: seq<string>, i: nat, p: Path, g: string)
    requires forall j: nat :: j < i ==> AltFrom(s, keys, j, 0).None?
    requires AltFrom(s, keys, i, 0) == Some(p)
    requires p.start <= p.end <= |s| && s[p.start..p.end] == g
    ensures Group(s, keys) == Some(g)
  {
    forall j: nat, q | j < i ensures !ValidPath(s, keys, j, q) {
      assert AltFrom(s, keys, j, 0).None?;
    }
    assert IsLeftmostFirst(s, keys, Match(i, p));
    GroupOfLeftmostFirst(s, keys, Match(i, p));
  }
}

=== FILE: presenter.dfy ===
/**
  What the analyser shows once it has feedback: the feedback followed by a
  Markdown table of the extracted metadata, and a download of the feedback
  alone.
 */
module Presenter {
  import opened PyStr
  import opened Metadata

  /** The Markdown before the row of values: two blank lines, a heading, a
      blank line, the header row and the alignment row. */
  const TableHead: string :=
    "\n\n### \U{1F4CA} Extracted Metadata\n\n"
    + "| Term         | Price        | Location     |\n"
    + "|--------------|--------------|--------------|\n"

  /** One cell of the row: the field with `*` stripped once more, that is,
      the field without the runs of `*` at its two ends. */
  function Cell(field: string): (c: string)
    ensures Trimmed(c, IsStar)
    ensures exists x, y :: AllIn(x, IsStar) && AllIn(y, IsStar) && field == x + c + y
    ensures '\n' !in field ==> '\n' !in c
  {
    var c := Strip(field, IsStar);
    assert '\n' !in field ==> '\n' !in c by {
      if '\n' !in field {
        StripKeepsNoNewline(field, IsStar);
      }
    }
    CellSplitsField(field, c);
    c
  }

  /** The field is the cell with the stripped runs of `*` around it. */
  lemma CellSplitsField(field: string, c: string)
    requires c == Strip(field, IsStar)
    ensures exists x, y :: AllIn(x, IsStar) && AllIn(y, IsStar) && field == x + c + y
  {
    var a := Span(field, 0, IsStar);
    var x, y := field[..a], field[a + |c|..];
    assert field == x + c + y;
  }

  /** The row of values, `| term | price | location |`, ended by a line feed. */
  function TableRow(md: Metadata): (row: string)
    ensures |row| >= 4 && row[..2] == "| " && row[|row| - 3..] == " |\n"
  {
    "| " + Cell(md.term) + " | " + Cell(md.price) + " | " + Cell(md.location) + " |\n"
  }

  /** `metadata_md`. */
  function MetadataMarkdown(md: Metadata): (text: string)
    ensures TableHead <= text
    ensures text[|TableHead|..] == TableRow(md)
  {
    TableHead + TableRow(md)
  }

  /** `feedback_with_metadata`: the text rendered on the page. */
  function DisplayedAnalysis(feedback: string): (text: string)
    ensures feedback <= text
  {
    feedback + MetadataMarkdown(ExtractMetadata(feedback))
  }

  /** The arguments of the download button. */
  datatype DownloadFile = DownloadFile(data: string, fileName: string, mime: string)

  /** The download offers the feedback alone, as plain text. */
  function DownloadOf(feedback: string): (d: DownloadFile)
    ensures d.data == feedback && d.fileName == "contract_analysis.txt" && d.mime == "text/plain"
  {
    DownloadFile(feedback, "contract_analysis.txt", "text/plain")
  }

  /** A field read off a single line gives a row that is itself a single
      line: its only line feed is the last character. */
  lemma RowIsOneLine(md: Metadata)
    requires '\n' !in md.term && '\n' !in md.price && '\n' !in md.location
    ensures var row := TableRow(md); '\n' !in row[..|row| - 1]
  {
    RowWithoutLastChar(Cell(md.term), Cell(md.price), Cell(md.location));
  }

  /** Without its final line feed, the row is its cells between `|`. */
  lemma RowWithoutLastChar(c1: string, c2: string, c3: string)
    requires '\n' !in c1 && '\n' !in c2 && '\n' !in c3
    ensures var row := "| " + c1 + " | " + c2 + " | " + c3 + " |\n";
            '\n' !in row[..|row| - 1]
  {
    var row := "| " + c1 + " | " + c2 + " | " + c3 + " |\n";
    assert row[..|row| - 1] == "| " + c1 + " | " + c2 + " | " + c3 + " |";
  }

  /** The table the page shows after the feedback keeps to one row: the
      metadata `extract_metadata` returns never breaks a row in two. */
  lemma ExtractedRowIsOneLine(feedback: string)
    ensures var row := TableRow(ExtractMetadata(feedback)); '\n' !in row[..|row| - 1]
  {
    RowIsOneLine(ExtractMetadata(feedback));
  }

  /** Splitting `a|rest` at `|`, when `a` holds no `|`: `a`, then the
      pieces of `rest`. */
  lemma SplitAfterPiece(a: string, rest: string)
    requires '|' !in a
    ensures Split(a + "|" + rest, '|') == [a] + Split(rest, '|')
  {
    assert a + "|" + rest == a + ['|'] + rest;
    SplitAppend(a, '|', rest);
    SplitWithoutSeparator(a, '|');
  }

  /** The pieces of `a|b|c|d|e` split at `|`, when no piece holds a `|`. */
  lemma SplitFive(a: string, b: string, c: string, d: string, e: string)
    requires '|' !in a && '|' !in b && '|' !in c && '|' !in d && '|' !in e
    ensures Split(a + "|" + (b + "|" + (c + "|" + (d + "|" + e))), '|') == [a, b, c, d, e]
  {
    SplitWithoutSeparator(e, '|');
    SplitAfterPiece(d, e);
    SplitAfterPiece(c, d + "|" + e);
    SplitAfterPiece(b, c + "|" + (d + "|" + e));
    SplitAfterPiece(a, b + "|" + (c + "|" + (d + "|" + e)));
    ConsFive(a, b, c, d, e);
  }

  /** Five one-element sequences, appended from the right. */
  lemma ConsFive<T>(a: T, b: T, c: T, d: T, e: T)
    ensures [a] + ([b] + ([c] + ([d] + [e]))) == [a, b, c, d, e]
  {
  }

  /** A cell as the row holds it, with one space on either side. */
  function Padded(c: string): (t: string)
    ensures |t| == |c| + 2 && t[0] == ' ' && t[|t| - 1] == ' ' && t[1..|t| - 1] == c
  {
    " " + c + " "
  }

  /** Padding adds no `|`. */
  lemma PaddedKeepsNoPipe(c: string)
    requires '|' !in c
    ensures '|' !in Padded(c)
  {
    var t := Padded(c);
    forall k | 0 <= k < |t| ensures t[k] != '|' {
      if 0 < k < |t| - 1 {
        assert t[k] == t[1..|t| - 1][k - 1];
      }
    }
  }

  /** The row regrouped as its pieces between the `|`. */
  lemma RowText(c1: string, c2: string, c3: string)
    ensures "| " + c1 + " | " + c2 + " | " + c3 + " |\n"
         == "" + "|" + (Padded(c1) + "|" + (Padded(c2) + "|" + (Padded(c3) + "|" + "\n")))
  {
  }

  /** Reading the row back: split at `|`, it gives an empty piece, the three
      cells each padded by one space, and the line feed, provided no cell
      holds a `|` of its own. */
  lemma RowCells(md: Metadata)
    requires '|' !in Cell(md.term) && '|' !in Cell(md.price) && '|' !in Cell(md.location)
    ensures Split(TableRow(md), '|')
         == ["", Padded(Cell(md.term)), Padded(Cell(md.price)), Padded(Cell(md.location)), "\n"]
  {
    var t, p, l := Padded(Cell(md.term)), Padded(Cell(md.price)), Padded(Cell(md.location));
    assert '|' !in t && '|' !in p && '|' !in l by {
      PaddedKeepsNoPipe(Cell(md.term));
      PaddedKeepsNoPipe(Cell(md.price));
      PaddedKeepsNoPipe(Cell(md.location));
    }
    RowText(Cell(md.term), Cell(md.price), Cell(md.location));
    SplitFive("", t, p, l, "\n");
  }

  /** Reading the metadata Markdown back: after the heading and the two
      header rows, the pieces between the `|` are the three cells of the
      fields, in the order term, price, location, each padded by one space. */
  lemma MarkdownCells(md: Metadata)
    requires '|' !in Cell(md.term) && '|' !in Cell(md.price) && '|' !in Cell(md.location)
    ensures Split(MetadataMarkdown(md)[|TableHead|..], '|')
         == ["", Padded(Cell(md.term)), Padded(Cell(md.price)), Padded(Cell(md.location)), "\n"]
  {
    RowCells(md);
  }

  /** A `|` inside a field is not escaped: it splits its cell in two, and the
      row then has one column more than the header. */
  lemma PipeInFieldAddsColumn(md: Metadata, x: string, y: string)
    requires Cell(md.price) == x + "|" + y && '|' !in x && '|' !in y
    requires '|' !in Cell(md.term) && '|' !in Cell(md.location)
    ensures |Split(TableRow(md), '|')| == 6
  {
    var t, l := Padded(Cell(md.term)), Padded(Cell(md.location));
    var x', y' := " " + x, y + " ";
    assert '|' !in t && '|' !in l && '|' !in x' && '|' !in y' by {
      PaddedKeepsNoPipe(Cell(md.term));
      PaddedKeepsNoPipe(Cell(md.location));
      assert x' == [' '] + x && y' == y + [' '];
    }
    RowTextWithPipe(Cell(md.term), x, y, Cell(md.location));
    SplitFive(t, x', y', l, "\n");
    SplitAfterPiece("", t + "|" + (x' + "|" + (y' + "|" + (l + "|" + "\n"))));
  }

  /** The row regrouped as its pieces between the `|`, when the middle
      cell holds one `|` of its own. */
  lemma RowTextWithPipe(c1: string, x: string, y: string, c3: string)
    ensures "| " + c1 + " | " + (x + "|" + y) + " | " + c3 + " |\n"
         == "" + "|" + (Padded(c1) + "|" + ((" " + x) + "|" + ((y + " ") + "|" + (Padded(c3) + "|" + "\n"))))
  {
  }

  /** The page shows exactly what the download holds, followed by the
      metadata table of that same text. */
  lemma DisplayIsDownloadAndTable(feedback: string)
    ensures DisplayedAnalysis(feedback)
         == DownloadOf(feedback).data + MetadataMarkdown(ExtractMetadata(DownloadOf(feedback).data))
  {
  }
}

=== FILE: prompts.dfy ===
/**
  The instructions sent to the completion service ahead of the contract:
  one fixed system prompt per analysis output language.
 */
module Prompts {

  /** The labels of the "Analysis Output Language" radio, in display order;
      the first is preselected. */
  const OutputLabels: seq<string> := ["Thai", "English", "Italian"]

  /** The three system prompts the analyser can send. */
  datatype Prompt = ThaiInstructions | ItalianInstructions | EnglishInstructions

  /** The words of each prompt, as sent. */
  function PromptText(p: Prompt): string {
    match p
    case ThaiInstructions =>
      "คุณเป็นผู้ช่วยด้านกฎหมาย วิเคราะห์เอกสารสัญญาฉบับนี้ "
      + "โดยเริ่มจากการระบุข้อมูลสำคัญ เช่น ระยะเวลาสัญญา จำนวนเงิน และสถานที่ "
      + "จากนั้นให้ข้อเสนอแนะเกี่ยวกับความเสี่ยง ข้อที่ขาดหายไป และความคลุมเครือ "
      + "ทั้งหมดให้แสดงผลเป็นภาษาไทย"
    case ItalianInstructions =>
      "Sei un assistente legale. Analizza questo contratto iniziando con l’estrazione dei dati principali "
      + "come durata, prezzo e località. Poi fornisci un’analisi sui rischi, clausole mancanti e ambiguità. "
      + "Scrivi tutto in italiano."
    case EnglishInstructions =>
      "You are a legal assistant. First, extract key contract metadata such as term, price, and location. "
      + "Then analyze the contract and provide feedback on risks, missing clauses, and ambiguities. "
      + "Respond in English."
  }

  /** The system prompt for the selected output label: Thai and Italian
      have their own, every other value falls through to English. */
  function SystemPrompt(choice: string): (p: Prompt)
    ensures p == ThaiInstructions <==> choice == "Thai"
    ensures p == ItalianInstructions <==> choice == "Italian"
    ensures p == EnglishInstructions <==> choice != "Thai" && choice != "Italian"
  {
    if choice == "Thai" then ThaiInstructions
    else if choice == "Italian" then ItalianInstructions
    else EnglishInstructions
  }

  /** The radio label that selects a prompt. */
  function PromptLabel(p: Prompt): (choice: string)
    ensures choice in OutputLabels
  {
    match p
    case ThaiInstructions => "Thai"
    case ItalianInstructions => "Italian"
    case EnglishInstructions => "English"
  }

  /** Every radio label selects a prompt from which the label can be read
      back, and every prompt is selected by its label: the three choices
      lead to three different instructions. */
  lemma PromptLabelRoundTrip(choice: string, p: Prompt)
    ensures choice in OutputLabels ==> PromptLabel(SystemPrompt(choice)) == choice
    ensures SystemPrompt(PromptLabel(p)) == p
  {
  }

  /** Different radio labels select different prompts. */
  lemma SystemPromptInjective(c1: string, c2: string)
    requires c1 in OutputLabels && c2 in OutputLabels
    requires SystemPrompt(c1) == SystemPrompt(c2)
    ensures c1 == c2
  {
    PromptLabelRoundTrip(c1, ThaiInstructions);
    PromptLabelRoundTrip(c2, ThaiInstructions);
  }
}

=== FILE: pystr.dfy ===
/**
  The few Python `str` operations the analyser applies to text: the
  whitespace test shared by `str.strip()` and the regular-expression class
  `\s`, `strip` with a character set, `split` and `join` on one separator
  character, concatenation of page texts, and lower-casing.
 */
module PyStr {

  /** Python's `str.isspace()` for one character. The class `\s` of a
      `str` pattern matches exactly these characters. */
  predicate IsSpace(c: char)
    ensures c as int < 128 ==> (IsSpace(c) <==> c in "\t\n\U{000B}\U{000C}\r\U{001C}\U{001D}\U{001E}\U{001F} ")
  {
    || c == '\t' || c == '\n' || c == '\U{000B}' || c == '\U{000C}' || c == '\r'
    || ('\U{001C}' <= c <= '\U{001F}') || c == ' '
    || c == '\U{0085}' || c == '\U{00A0}' || c == '\U{1680}'
    || ('\U{2000}' <= c <= '\U{200A}')
    || c == '\U{2028}' || c == '\U{2029}' || c == '\U{202F}' || c == '\U{205F}'
    || c == '\U{3000}'
  }

  /** The set `{'*'}` given to `str.strip("*")`. */
  predicate IsStar(c: char) {
    c == '*'
  }

  /** End of the longest run of characters satisfying `keep` that starts
      at `k`: what a greedy `[class]*` consumes before it backtracks. */
  function Span(s: string, k: nat, keep: char -> bool): (r: nat)
    requires k <= |s|
    ensures k <= r <= |s|
    ensures forall t :: k <= t < r ==> keep(s[t])
    ensures r == |s| || !keep(s[r])
    decreases |s| - k
  {
    if k == |s| || !keep(s[k]) then k else Span(s, k + 1, keep)
  }

  /** Start of the longest run of characters satisfying `drop` that ends
      the string, not reaching below `lo`; `hi` is where the search starts. */
  function SpanBack(s: string, lo: nat, hi: nat, drop: char -> bool): (r: nat)
    requires lo <= hi <= |s|
    requires forall t :: hi <= t < |s| ==> drop(s[t])
    ensures lo <= r <= hi
    ensures forall t :: r <= t < |s| ==> drop(s[t])
    ensures r == lo || !drop(s[r - 1])
    decreases hi
  {
    if hi == lo || !drop(s[hi - 1]) then hi else SpanBack(s, lo, hi - 1, drop)
  }

  /** Neither end of `r` is a character of the stripped set. */
  ghost predicate Trimmed(r: string, drop: char -> bool) {
    r == [] || (!drop(r[0]) && !drop(r[|r| - 1]))
  }

  /** Every character of `s` is in the stripped set. */
  ghost predicate AllIn(s: string, drop: char -> bool) {
    forall t :: 0 <= t < |s| ==> drop(s[t])
  }

  /** Python's `s.strip(chars)` for the character set `drop`:
      `Strip(s, IsSpace)` is `s.strip()` and `Strip(s, IsStar)` is
      `s.strip("*")`. The result is the slice of `s` left after removing
      the longest prefix and then the longest suffix made of `drop`. */
  function Strip(s: string, drop: char -> bool): (r: string)
    ensures Trimmed(r, drop)
    ensures |r| <= |s|
    ensures var a := Span(s, 0, drop);
            && a + |r| <= |s|
            && r == s[a..a + |r|]
            && AllIn(s[..a], drop)
            && AllIn(s[a + |r|..], drop)
  {
    var a := Span(s, 0, drop);
    var b := SpanBack(s, a, |s|, drop);
    assert AllIn(s[..a], drop) by {
      forall t | 0 <= t < a ensures drop(s[..a][t]) {
        assert s[..a][t] == s[t];
      }
    }
    assert AllIn(s[b..], drop) by {
      forall t | 0 <= t < |s| - b ensures drop(s[b..][t]) {
        assert s[b..][t] == s[b + t];
      }
    }
    s[a..b]
  }

  /** `s` occurs in `whole` as one contiguous piece. */
  ghost predicate IsSliceOf(s: string, whole: string) {
    exists a :: 0 <= a <= |whole| && s <= whole[a..]
  }

  /** A piece of a slice is a slice. */
  lemma SliceOfSlice(s: string, whole: string, b: nat, e: nat)
    requires IsSliceOf(s, whole) && b <= e <= |s|
    ensures IsSliceOf(s[b..e], whole)
  {
    var a :| 0 <= a <= |whole| && s <= whole[a..];
    assert s[b..e] <= whole[a + b..] by {
      forall t | 0 <= t < e - b ensures s[b..e][t] == whole[a + b..][t] {
        assert s[b..e][t] == s[b + t] == whole[a + b + t];
      }
    }
  }

  /** Stripping the ends of a slice leaves a slice. */
  lemma StripOfSlice(s: string, whole: string, drop: char -> bool)
    requires IsSliceOf(s, whole)
    ensures IsSliceOf(Strip(s, drop), whole)
  {
    var r := Strip(s, drop);
    var b := Span(s, 0, drop);
    SliceOfSlice(s, whole, b, b + |r|);
  }

  /** A string without line feeds keeps none after stripping. */
  lemma StripKeepsNoNewline(s: string, drop: char -> bool)
    requires '\n' !in s
    ensures '\n' !in Strip(s, drop)
  {
    if '\n' in Strip(s, drop) {
      StripKeepsCharacters(s, drop, '\n');
    }
  }

  /** Any decomposition of `s` into a stripped-set prefix, a trimmed middle
      and a stripped-set suffix is the one `Strip` finds: the middle is the
      result. */
  lemma StripUnique(x: string, r: string, y: string, drop: char -> bool)
    requires AllIn(x, drop) && AllIn(y, drop) && Trimmed(r, drop)
    ensures Strip(x + r + y, drop) == r
  {
    var s := x + r + y;
    var a := Span(s, 0, drop);
    var b := SpanBack(s, a, |s|, drop);
    assert Strip(s, drop) == s[a..b];
    forall t | 0 <= t < |x| ensures drop(s[t]) {
      assert s[t] == x[t];
    }
    forall t | |x| + |r| <= t < |s| ensures drop(s[t]) {
      assert s[t] == y[t - |x| - |r|];
    }
    if r == [] {
      assert a == |s|;
    } else {
      assert s[|x|] == r[0];
      assert a == |x|;
      assert s[|x| + |r| - 1] == r[|r| - 1];
      assert b == |x| + |r|;
      assert s[a..b] == r;
    }
  }

  /** Stripping twice removes nothing more. */
  lemma StripIdempotent(s: string, drop: char -> bool)
    ensures Strip(Strip(s, drop), drop) == Strip(s, drop)
  {
    var r := Strip(s, drop);
    assert r == [] + r + [];
    StripUnique([], r, [], drop);
  }

  /** Every character of the stripped string comes from `s`. */
  lemma StripKeepsCharacters(s: string, drop: char -> bool, c: char)
    requires c in Strip(s, drop)
    ensures c in s
  {
    var r := Strip(s, drop);
    var a := Span(s, 0, drop);
    var k :| 0 <= k < |r| && r[k] == c;
    assert s[a + k] == c;
  }

  /** ASCII upper-case letters to lower case; every other character unchanged. */
  function LowerAscii(c: char): (d: char)
    ensures 'A' <= c <= 'Z' ==> 'a' <= d <= 'z' && d as int - c as int == 32
    ensures !('A' <= c <= 'Z') ==> d == c
  {
    if 'A' <= c <= 'Z' then (c as int + 32) as char else c
  }

  /** `str.lower()` on the ASCII letters of `s`. */
  function Lower(s: string): (r: string)
    ensures |r| == |s|
    ensures forall t :: 0 <= t < |s| ==> r[t] == LowerAscii(s[t])
  {
    seq(|s|, t requires 0 <= t < |s| => LowerAscii(s[t]))
  }

  /** Lower-casing a lower-cased string changes nothing, and lower-casing
      changes only the case of ASCII letters. */
  lemma LowerIdempotent(s: string)
    ensures Lower(Lower(s)) == Lower(s)
    ensures Recased(s, Lower(s))
  {
    var l := Lower(s);
    forall t | 0 <= t < |s| ensures LowerAscii(l[t]) == l[t] && LowerAscii(s[t]) == LowerAscii(l[t]) {
      assert l[t] == LowerAscii(s[t]);
    }
  }

  /** `s2` differs from `s1` at most in the case of ASCII letters. */
  ghost predicate Recased(s1: string, s2: string) {
    |s1| == |s2| && forall t :: 0 <= t < |s1| ==> LowerAscii(s1[t]) == LowerAscii(s2[t])
  }

  /** The same slice of two re-cased strings. */
  lemma RecasedSlice(s1: string, s2: string, lo: nat, hi: nat)
    requires Recased(s1, s2) && lo <= hi <= |s1|
    ensures Recased(s1[lo..hi], s2[lo..hi])
  {
    forall t | 0 <= t < hi - lo ensures LowerAscii(s1[lo..hi][t]) == LowerAscii(s2[lo..hi][t]) {
      assert s1[lo..hi][t] == s1[lo + t] && s2[lo..hi][t] == s2[lo + t];
    }
  }

  /** The set `drop` contains a character exactly when it contains its
      ASCII lower-case form: true of whitespace and of `'*'`. */
  ghost predicate CaseBlind(drop: char -> bool) {
    forall c :: drop(LowerAscii(c)) == drop(c)
  }

  /** Re-casing letters moves no run boundary of a case-blind set. */
  lemma {:induction false} RecasedSpan(s1: string, s2: string, k: nat, drop: char -> bool)
    requires Recased(s1, s2) && CaseBlind(drop) && k <= |s1|
    ensures Span(s1, k, drop) == Span(s2, k, drop)
    decreases |s1| - k
  {
    if k < |s1| {
      assert drop(s1[k]) == drop(LowerAscii(s1[k])) == drop(s2[k]);
      if drop(s1[k]) {
        RecasedSpan(s1, s2, k + 1, drop);
      }
    }
  }

  /** Re-casing letters moves no trailing-run boundary of a case-blind set. */
  lemma {:induction false} RecasedSpanBack(s1: string, s2: string, lo: nat, hi: nat, drop: char -> bool)
    requires Recased(s1, s2) && CaseBlind(drop) && lo <= hi <= |s1|
    requires forall t :: hi <= t < |s1| ==> drop(s1[t])
    requires forall t :: hi <= t < |s2| ==> drop(s2[t])
    ensures SpanBack(s1, lo, hi, drop) == SpanBack(s2, lo, hi, drop)
    decreases hi
  {
    if lo < hi {
      assert drop(s1[hi - 1]) == drop(LowerAscii(s1[hi - 1])) == drop(s2[hi - 1]);
      if drop(s1[hi - 1]) {
        RecasedSpanBack(s1, s2, lo, hi - 1, drop);
      }
    }
  }

  /** Stripping a case-blind set from two strings that differ only in
      letter case leaves two strings that differ only in letter case. */
  lemma RecasedStrip(s1: string, s2: string, drop: char -> bool)
    requires Recased(s1, s2) && CaseBlind(drop)
    ensures Recased(Strip(s1, drop), Strip(s2, drop))
  {
    var a := Span(s1, 0, drop);
    RecasedSpan(s1, s2, 0, drop);
    RecasedSpanBack(s1, s2, a, |s1|, drop);
    var b := SpanBack(s1, a, |s1|, drop);
    assert Strip(s1, drop) == s1[a..b] && Strip(s2, drop) == s2[a..b];
  }

  /** Whitespace is case-blind. */
  lemma SpaceIsCaseBlind()
    ensures CaseBlind(IsSpace)
  {
    forall c ensures IsSpace(LowerAscii(c)) == IsSpace(c) {
      if 'A' <= c <= 'Z' {
        assert 'a' <= LowerAscii(c) <= 'z';
      }
    }
  }

  /** `'*'` is case-blind. */
  lemma StarIsCaseBlind()
    ensures CaseBlind(IsStar)
  {
    forall c ensures IsStar(LowerAscii(c)) == IsStar(c) {
      if 'A' <= c <= 'Z' {
        assert 'a' <= LowerAscii(c) <= 'z';
      }
    }
  }

  /** Index of the first `c` at or after `k`, or `|s|` when there is none. */
  function Find(s: string, c: char, k: nat): (r: nat)
    requires k <= |s|
    ensures k <= r <= |s|
    ensures forall t :: k <= t < r ==> s[t] != c
    ensures r < |s| ==> s[r] == c
    decreases |s| - k
  {
    if k == |s| || s[k] == c then k else Find(s, c, k + 1)
  }

  /** Python's `s.split(sep)` for a one-character separator: the pieces
      between separators, in order, at least one, possibly empty. */
  function Split(s: string, sep: char): (parts: seq<string>)
    ensures |parts| >= 1
    ensures forall k :: 0 <= k < |parts| ==> sep !in parts[k]
    decreases |s|
  {
    var n := Find(s, sep, 0);
    if n == |s| then
      [s]
    else
      var head := s[..n];
      assert sep !in head by {
        forall t | 0 <= t < n ensures head[t] != sep { assert head[t] == s[t]; }
      }
      [head] + Split(s[n + 1..], sep)
  }

  /** Python's `sep.join(parts)` for a one-character separator. */
  function Join(parts: seq<string>, sep: char): (r: string)
    ensures |parts| == 0 ==> r == ""
    ensures |parts| == 1 ==> r == parts[0]
    decreases |parts|
  {
    if |parts| == 0 then ""
    else if |parts| == 1 then parts[0]
    else parts[0] + [sep] + Join(parts[1..], sep)
  }

  /** Splitting on the separator undoes joining with it, provided no piece
      contains the separator. */
  lemma {:induction false} SplitJoin(parts: seq<string>, sep: char)
    requires |parts| >= 1
    requires forall k :: 0 <= k < |parts| ==> sep !in parts[k]
    ensures Split(Join(parts, sep), sep) == parts
    decreases |parts|
  {
    var s := Join(parts, sep);
    if |parts| == 1 {
      assert s == parts[0];
      assert Find(s, sep, 0) == |s|;
    } else {
      var tail := Join(parts[1..], sep);
      assert s == parts[0] + [sep] + tail;
      calc {
        Split(s, sep);
        { SplitAppend(parts[0], sep, tail); }
        Split(parts[0], sep) + Split(tail, sep);
        { SplitJoin([parts[0]], sep); }
        [parts[0]] + Split(tail, sep);
        { SplitJoin(parts[1..], sep); }
        [parts[0]] + parts[1..];
        parts;
      }
    }
  }

  /** Joining the pieces with the separator gives back the string split. */
  lemma {:induction false} JoinSplit(s: string, sep: char)
    ensures Join(Split(s, sep), sep) == s
    decreases |s|
  {
    var n := Find(s, sep, 0);
    if n < |s| {
      var tail := Split(s[n + 1..], sep);
      calc {
        Join(Split(s, sep), sep);
        Join([s[..n]] + tail, sep);
        { JoinCons(s[..n], tail, sep); }
        s[..n] + [sep] + Join(tail, sep);
        { JoinSplit(s[n + 1..], sep); }
        s[..n] + [sep] + s[n + 1..];
        s;
      }
    } else {
      assert Split(s, sep) == [s];
    }
  }

  /** Joining a first piece in front of one or more others puts the
      separator between it and the join of the others. With the empty and
      the one-piece cases of `Join`, this determines every join. */
  lemma JoinCons(head: string, tail: seq<string>, sep: char)
    requires |tail| >= 1
    ensures Join([head] + tail, sep) == head + [sep] + Join(tail, sep)
  {
    assert ([head] + tail)[1..] == tail;
  }

  /** Appending after a separator-terminated search range does not move
      the first separator found in `a`. */
  lemma {:induction false} FindAppend(a: string, sep: char, b: string, k: nat)
    requires k <= |a|
    ensures Find(a + [sep] + b, sep, k) == Find(a, sep, k)
    decreases |a| - k
  {
    var s := a + [sep] + b;
    if k == |a| {
      assert s[k] == sep;
    } else {
      assert s[k] == a[k];
      if a[k] != sep {
        FindAppend(a, sep, b, k + 1);
      }
    }
  }

  /** Splitting `a + [sep] + b` splits `a` and `b` separately. */
  lemma {:induction false} SplitAppend(a: string, sep: char, b: string)
    ensures Split(a + [sep] + b, sep) == Split(a, sep) + Split(b, sep)
    decreases |a|
  {
    var s := a + [sep] + b;
    var m := Find(a, sep, 0);
    FindAppend(a, sep, b, 0);
    if m == |a| {
      calc {
        Split(s, sep);
        [s[..m]] + Split(s[m + 1..], sep);
        { assert s[..m] == a && s[m + 1..] == b; }
        [a] + Split(b, sep);
      }
    } else {
      var a' := a[m + 1..];
      calc {
        Split(s, sep);
        [s[..m]] + Split(s[m + 1..], sep);
        { assert s[..m] == a[..m] && s[m + 1..] == a' + [sep] + b; }
        [a[..m]] + Split(a' + [sep] + b, sep);
        { SplitAppend(a', sep, b); }
        [a[..m]] + (Split(a', sep) + Split(b, sep));
        ([a[..m]] + Split(a', sep)) + Split(b, sep);
        Split(a, sep) + Split(b, sep);
      }
    }
  }

  /** The last piece of a split is the text after the last separator, or
      the whole string when there is none. */
  lemma {:induction false} LastPiece(s: string, sep: char) returns (a: nat)
    ensures a <= |s| && (a == 0 || s[a - 1] == sep)
    ensures Split(s, sep)[|Split(s, sep)| - 1] == s[a..]
    decreases |s|
  {
    var n := Find(s, sep, 0);
    if n == |s| {
      a := 0;
    } else {
      var rest := s[n + 1..];
      var b := LastPiece(rest, sep);
      a := n + 1 + b;
      assert rest[b..] == s[a..];
      if b > 0 {
        assert rest[b - 1] == s[a - 1];
      }
    }
  }

  /** A string without the separator splits into itself alone. */
  lemma SplitWithoutSeparator(s: string, sep: char)
    requires sep !in s
    ensures Split(s, sep) == [s]
  {
    SplitJoin([s], sep);
  }

  /** The text of several pages read one after another: every page
      appears in it whole. */
  function Concat(pages: seq<string>): (r: string)
    ensures |pages| == 0 ==> r == ""
    ensures |pages| == 1 ==> r == pages[0]
    ensures forall k :: 0 <= k < |pages| ==> IsSliceOf(pages[k], r)
    decreases |pages|
  {
    if |pages| == 0 then ""
    else
      var rest := Concat(pages[1..]);
      var r := pages[0] + rest;
      assert pages[0] <= r[0..];
      forall k | 1 <= k < |pages| ensures IsSliceOf(pages[k], r) {
        assert pages[k] == pages[1..][k - 1];
        var a :| 0 <= a <= |rest| && pages[k] <= rest[a..];
        assert rest[a..] == r[|pages[0]| + a..];
      }
      r
  }

  /** Reading two runs of pages one after the other reads all of them. */
  lemma {:induction false} ConcatAppend(a: seq<string>, b: seq<string>)
    ensures Concat(a + b) == Concat(a) + Concat(b)
    decreases |a|
  {
    if |a| > 0 {
      assert (a + b)[1..] == a[1..] + b;
      ConcatAppend(a[1..], b);
    } else {
      assert a + b == b;
    }
  }
}

=== FILE: upload.dfy ===
/**
  Reading the uploaded contract: the file type is taken from the name, and
  the text comes from the PDF pages, the DOCX paragraphs or the UTF-8
  bytes, whichever the type selects.
 */
module Upload {
  import opened Options
  import opened PyStr

  /** What the analyser does with an upload, by file type. */
  datatype FileKind = Pdf | Docx | Txt | Unsupported

  /** An uploaded file: its name, and what each reader makes of its bytes
      (the text of each PDF page in order, the text of each DOCX paragraph
      in order, and the bytes decoded as UTF-8). Only the reader the file
      type selects is consulted. */
  datatype UploadedFile = UploadedFile(
    name: string,
    pdfPages: seq<string>,
    docxParagraphs: seq<string>,
    utf8Text: string)

  /** `name.split('.')[-1].lower()`: the text after the last `.` of the
      name (the whole name if it has none), in lower case. */
  function FileType(name: string): (ext: string)
    ensures '.' !in ext
    ensures exists a :: 0 <= a <= |name| && (a == 0 || name[a - 1] == '.')
                         && '.' !in name[a..] && ext == Lower(name[a..])
  {
    var parts := Split(name, '.');
    var last := parts[|parts| - 1];
    assert exists a :: 0 <= a <= |name| && (a == 0 || name[a - 1] == '.')
                       && '.' !in name[a..] && Lower(last) == Lower(name[a..]) by {
      var a := LastPiece(name, '.');
      assert '.' !in name[a..];
    }
    LowerKeepsDots(last);
    Lower(last)
  }

  /** Lower-casing changes no `.`. */
  lemma LowerKeepsDots(s: string)
    requires '.' !in s
    ensures '.' !in Lower(s)
  {
    forall t | 0 <= t < |s| ensures Lower(s)[t] != '.' {
      assert s[t] != '.';
    }
  }

  /** The branch of the upload code a file type selects. */
  function Kind(ext: string): (k: FileKind)
    ensures k == Pdf <==> ext == "pdf"
    ensures k == Docx <==> ext == "docx"
    ensures k == Txt <==> ext == "txt"
  {
    if ext == "pdf" then Pdf
    else if ext == "docx" then Docx
    else if ext == "txt" then Txt
    else Unsupported
  }

  /** The contract text read from the upload, or "" when there is no
      upload or its type is none of pdf, docx and txt. */
  function ContractText(upload: Option<UploadedFile>): (text: string)
    ensures upload.None? ==> text == ""
    ensures upload.Some? && Kind(FileType(upload.value.name)) == Unsupported ==> text == ""
    ensures upload.Some? && Kind(FileType(upload.value.name)) == Pdf ==>
              forall k :: 0 <= k < |upload.value.pdfPages| ==> IsSliceOf(upload.value.pdfPages[k], text)
    ensures upload.Some? && Kind(FileType(upload.value.name)) == Txt ==> text == upload.value.utf8Text
  {
    match upload
    case None => ""
    case Some(f) =>
      match Kind(FileType(f.name))
      case Pdf => Concat(f.pdfPages)
      case Docx => Join(f.docxParagraphs, '\n')
      case Txt => f.utf8Text
      case Unsupported => ""
  }

  /** The file type is the lower-cased extension after the last `.`. */
  lemma FileTypeOfExtension(stem: string, ext: string)
    requires '.' !in ext
    ensures FileType(stem + "." + ext) == Lower(ext)
  {
    SplitAppend(stem, '.', ext);
    assert stem + "." + ext == stem + ['.'] + ext;
    SplitWithoutSeparator(ext, '.');
  }

  /** A name without a `.` is its own file type, lower-cased. */
  lemma FileTypeWithoutDot(name: string)
    requires '.' !in name
    ensures FileType(name) == Lower(name)
  {
    SplitWithoutSeparator(name, '.');
  }

  /** The type test ignores the case of the extension: "Contract.PDF" is
      read as a PDF. */
  lemma UpperCaseExtension()
    ensures Kind(FileType("Contract.PDF")) == Pdf
  {
    FileTypeOfExtension("Contract", "PDF");
    assert Lower("PDF") == "pdf";
  }

  /** Only the last extension counts: "lease.pdf.txt" is read as text. */
  lemma LastExtensionCounts()
    ensures Kind(FileType("lease.pdf.txt")) == Txt
  {
    FileTypeOfExtension("lease.pdf", "txt");
    assert Lower("txt") == "txt";
  }

  /** A DOCX contract is its paragraphs joined with line feeds: splitting
      the text at line feeds gives the paragraphs back, provided there is at
      least one and none holds a line feed of its own. */
  lemma DocxParagraphsRoundTrip(f: UploadedFile)
    requires Kind(FileType(f.name)) == Docx
    requires |f.docxParagraphs| >= 1
    requires forall k :: 0 <= k < |f.docxParagraphs| ==> '\n' !in f.docxParagraphs[k]
    ensures Split(ContractText(Some(f)), '\n') == f.docxParagraphs
  {
    SplitJoin(f.docxParagraphs, '\n');
  }

  /** A PDF contract is its pages' text in page order: the pages of a
      document read in two parts give the two texts one after the other. */
  lemma PdfPagesInOrder(f: UploadedFile, split: nat)
    requires Kind(FileType(f.name)) == Pdf && split <= |f.pdfPages|
    ensures ContractText(Some(f)) == Concat(f.pdfPages[..split]) + Concat(f.pdfPages[split..])
  {
    assert f.pdfPages == f.pdfPages[..split] + f.pdfPages[split..];
    ConcatAppend(f.pdfPages[..split], f.pdfPages[split..]);
  }
}
